=== FILE: README.md ===
# Maze raycaster, modelled in Dafny

This project models the core of a tile-grid maze game with a first-person
"ASCII" raycaster and a maze editor. The game has two front ends: a browser
version (`game.js`) and a terminal version (`maze_game.py`). Each is modelled
in its own modules, because they differ in detail:

- The browser floors coordinates. The terminal truncates them with `int()`.
- A fresh browser grid is empty. A fresh terminal grid is all wall.
- The browser editor sets or clears a cell by mode. The terminal editor flips it.

Shared modules:

- `Numeric`: floor, truncation, clamping and the "whole number of turns" predicate.
- `Grid`: the maze record, fresh grids, cell access and cell writes, and the five-field save/load record.
- `Cursor`: the editor cursor and its clamped moves and the w/s/a/d step that moves it, identical in both front ends, and the `Mode` type (game or editor). The switch between the modes differs between the front ends and is modelled in each: `JsGame.HandleInput` (debounced at 300 ms, in both modes, clearing 'm') and `PyGame.HandleGameInput` / `PyGame.HandleEditorInput` (no debounce; in the editor only when no earlier key is held).
- `Layout`: the default layout and the one loop that generates it. The browser's `setWall` and the terminal's `set_wall` are both proved to agree with `Grid.SetCell` on integer coordinates.
- `Camera`: pi, the field of view, the per-column ray angle, and the heading's cosine and sine as a tick receives them.
- `Ray`: depth, step size, sample geometry, the reference ray search and the shade palette.

The browser modules are `JsMaze`, `JsPlayer`, `JsRenderer`, `JsEditor` and `JsGame`.
The terminal modules are `PyMaze`, `PyPlayer`, `PyRenderer`, `PyEditor` and `PyGame`.

How the model represents the program:

- Positions and angles are reals. Floating-point rounding is not modelled.
- Cosines, sines and the square root are inputs:
  - a move takes the cosine and sine of its heading;
  - a ray takes a unit direction and the cosine of its offset from the heading.
- The ray samples are computed exactly: sample `k` lies at `start + (k+1)·0.01·direction`. For a unit direction, its Euclidean distance is `(k+1)·0.01`, and `Ray.SampleDistanceIsEuclidean` proves this.
- Each ray march has two forms, proved equal:
  - a reference search `Ray.March`, shared by both front ends: the first sample that a given test puts in a wall. Each renderer supplies its own test (`Hits`), floored in the browser and truncated in the terminal;
  - a loop `CastRay` written as the source writes it.
- The fisheye correction multiplies by the cosine of the ray's offset from the heading. On the central ray that cosine is 1, so the reported distance is the plain sampled one.
- Keys are the keys held at one tick or poll, given as a record of booleans. Not every record can occur. The terminal's `keyboard` library reports 's' as held whenever ctrl+s is, and `PyGame.Held` states this; the terminal editor handler requires it.
- The clock reading is an integer input.
- The terminal save file is a value passed in and handed back.

## Model

| member | source | states |
|---|---|---|
| Grid.SetCell | game.js:22-28 | Writing a cell keeps the maze well formed with the same frame, sets exactly that cell, leaves every other cell alone, and is a no-op off the grid |
| Grid.LoadSaveRoundTrip | game.js:58-81 | Loading the record that was saved gives back the saved maze, whatever maze it is loaded over |
| Grid.LoadReplacesAll | maze_game.py:44-64 | Loading replaces all five fields: nothing of the previous maze survives, and saving the result gives back the record |
| Layout.GenerateDefault | game.js:30-56 | The generator's loops produce exactly the reference layout `Expected`: border and ring walls, the four openings cleared, every other cell as it was. The terminal generator (maze_game.py:270-292) runs the same loops with the same bounds |
| JsMaze.New | game.js:4-11 | A fresh maze is well formed with every cell empty, start (1,1) and end (width-2, height-2) |
| JsMaze.IsWall | game.js:13-20 | Any point whose floored cell is outside the grid is a wall; inside, a point is a wall iff its floored cell holds 1 |
| JsMaze.IsWallPerCell | game.js:13-20 | Points that floor to the same cell get the same answer |
| JsMaze.SetWall | game.js:22-28 | Only cell (floor x, floor y) changes, to 1 or 0 as asked; off the grid nothing changes; the frame is kept |
| JsMaze.SetWallOnIntegers | game.js:22-28 | On integer coordinates `setWall` is exactly the shared cell write |
| JsMaze.FreshDefaultLayout | game.js:30-56 | On a fresh 20x20 maze, every border cell is a wall, the four openings and (15,15) are open, and a cell is a wall iff it is on the border or a ring and is not an opening |
| Numeric.TruncAgainstFloor | maze_game.py:82-85 | Truncation agrees with floor for non-negative values and is one more than floor for negative non-integers, which is where the two front ends part |
| Camera.RayWithinFieldOfView | game.js:198 | Column rays lie in [angle - fov/2, angle + fov/2), and column 0 is the left edge |
| Ray.SamplesIsDepthOverStep | game.js:173-176 | The march takes depth/step = 1600 samples |
| Ray.SampleDistanceIsEuclidean | game.js:181-182 | For a unit direction, the Euclidean distance of sample k from the start is (k+1) times the step |
| Ray.SampleDistanceBounds | game.js:176-182 | With a cosine factor in (0, 1], every reported hit distance is positive and at most the depth |
| Ray.SampleDistanceMonotonic | game.js:176-182 | Later samples report distances no shorter than earlier ones |
| JsPlayer.NormalizeAngle | game.js:94-102 | The result lies in [0, 2π), differs from the input by a whole number of turns, and equals the input when it is already in range |
| JsPlayer.Slide | game.js:104-113 | Each coordinate is either kept or takes its candidate, the heading is kept, and a player in an open cell stays in an open cell inside the grid |
| JsPlayer.SlideAxes | game.js:104-113 | The x candidate is tested against the old y; the y candidate is tested against the already updated x; the four blocked/open combinations give the four outcomes |
| JsPlayer.MoveForward | game.js:104-113 | The player moves along (cos, sin)·d, axis by axis; a player in an open cell never ends in a wall |
| JsPlayer.MoveBackward | game.js:115-124 | The player moves along -(cos, sin)·d, with the same wall guarantee |
| JsPlayer.StrafeLeft | game.js:126-135 | The player moves along the heading less a quarter turn, (sin, -cos)·d, with the same wall guarantee |
| JsPlayer.StrafeRight | game.js:137-146 | The player moves along the heading plus a quarter turn, (-sin, cos)·d, with the same wall guarantee |
| Ray.March | game.js:167-187 | A hit is the first sample the test puts in a wall, reported at its corrected distance; no hit means no sample of the 1600 is in a wall. The terminal's `cast_ray` (maze_game.py:124-142) searches the same samples |
| JsRenderer.CastRay | game.js:167-187 | The loop returns at the first sample whose floored cell is a wall, with its distance, and otherwise reports no hit, as `Ray.March` does |
| JsRenderer.ShadeIndex | game.js:214 | The shade index is in the palette for non-negative distances and is the last shade at or beyond the depth |
| JsRenderer.ShadeIndexMonotonic | game.js:214 | Farther walls never get a nearer shade |
| JsRenderer.ColumnSlab | game.js:201-202 | The wall height is the perspective height height/(distance+0.0001), or the full height where that exceeds it; ceiling and floor are equal halves of the rest; the three add up to the height |
| JsRenderer.WallHeightNonIncreasing | game.js:201 | Farther walls are drawn no taller |
| JsRenderer.ColumnCount | game.js:193 | The column count is the floor of width/10 |
| JsEditor.ToggleCell | game.js:336-342 | The cursor cell becomes 1 in draw mode and 0 in erase mode; no other cell changes; off the grid nothing changes |
| JsEditor.ToggleIdempotent | game.js:336-342 | Toggling twice is the same as toggling once |
| Cursor.CursorStep | maze_game.py:357-369 | Exactly one unit step when a cursor key is held and none otherwise, with priority w, then s, then a, then d. The browser's editor tick (game.js:586-601) uses the same priority |
| Cursor.MoveCursor | game.js:344-347 | The cursor stays in [0, width-1]×[0, height-1]; an in-range step is taken exactly; a step past an edge stops on that edge; the mode is kept. The terminal `move_cursor` (maze_game.py:252-255) is the same code |
| JsEditor.ClickCellInRange | game.js:354-355 | A click inside the canvas maps to a cell index below the larger maze side |
| JsEditor.HandleClick | game.js:349-365 | A click on a cell moves the cursor there and toggles it; a click outside the grid changes nothing |
| JsEditor.SquareClickAlwaysEdits | game.js:349-365 | On a square maze every click in the canvas edits the clicked cell to the mode's value |
| JsGame.Init | game.js:369-393 | The starting state holds the invariant: the player at (1.5,1.5) in an open cell, angle in range, cursor in range, default layout on an empty grid |
| JsGame.WholeTurnsCompose | game.js:567-574 | Two normalisations compose: differences of whole turns add up to a whole number of turns |
| JsGame.Moves | game.js:563-566 | Game-mode moves keep the heading and never take a player from an open cell into a wall; with no movement key the player stays |
| JsGame.Rotate | game.js:567-574 | After a turn key the angle is back in [0, 2π) and differs from angle+turn by whole turns; without one it is unchanged |
| JsGame.GameTick | game.js:562-574 | One game tick puts the player exactly where the four moves take it, keeps it out of walls and the angle in range, and turns it by the requested amount up to whole turns |
| JsGame.CursorTick | game.js:584-608 | The cursor moves only if a cursor key is held and more than 100 ms have passed, and then records the time; it stays in range |
| JsGame.HandleInput | game.js:559-619 | The maze is untouched. The invariant is kept. The mode flips iff m is held and more than 300 ms have passed, and then the time is recorded and m is cleared. Game mode moves the player exactly as the four moves do and leaves the editor alone. Editor mode leaves the player alone and takes at most one debounced cursor step |
| PyMaze.New | maze_game.py:26-31 | A fresh maze is well formed with every cell a wall, start (1,1) and end (width-2, height-2) |
| PyMaze.IsWall | maze_game.py:33-37 | Coordinates outside the grid are walls (checked before truncation); inside, the truncated cell decides |
| PyMaze.TruncatedCallersReadColumnZero | maze_game.py:82-85 | A candidate x in (-1, 0) is a wall by itself, but its truncation reads column 0, which is what callers pass |
| PyMaze.SetWall | maze_game.py:39-42 | Only the truncated cell changes, to 1 or 0; off the grid nothing changes |
| PyMaze.SetWallOnIntegers | maze_game.py:39-42 | On integer coordinates `set_wall` is exactly the shared cell write |
| PyMaze.AllWallsDefaultLayout | maze_game.py:270-292 | Generating on the constructor's all-wall grid leaves every cell a wall except the four openings |
| PyMaze.EmptyDefaultLayout | maze_game.py:270-292 | Generating on an empty grid gives walls exactly on the border and the rings, less the four openings |
| PyPlayer.Slide | maze_game.py:78-85 | Each coordinate is kept or takes its candidate; a player whose truncated cell is open stays in an open truncated cell, within (-1, width)×(-1, height) |
| PyPlayer.SlideAxes | maze_game.py:82-85 | The x candidate is tested through `int()` against the old y, the y candidate against the x just settled; the four blocked/open combinations give the four outcomes, so a diagonal step into a wall keeps the open axis |
| PyPlayer.SlideAcrossZero | maze_game.py:82-85 | Because of truncation a player can step to an x in (-1, 0) when column 0 of its row is open |
| PyPlayer.MoveForward | maze_game.py:78-85 | The player moves along (cos, sin)·d, axis by axis, and stays in an open truncated cell |
| PyPlayer.MoveBackward | maze_game.py:87-94 | The player moves along -(cos, sin)·d, with the same guarantee |
| PyPlayer.StrafeLeft | maze_game.py:96-103 | The player moves along the heading less a quarter turn, (sin, -cos)·d, with the same guarantee |
| PyPlayer.StrafeRight | maze_game.py:105-112 | The player moves along the heading plus a quarter turn, (-sin, cos)·d, with the same guarantee |
| PyRenderer.CastRay | maze_game.py:124-142 | The loop of int(16/0.01) steps returns at the first sample whose truncated cell is a wall, with its corrected distance, and otherwise reports no hit, as `Ray.March` does |
| PyRenderer.ShadeIndex | maze_game.py:171-172 | The shade index is in the palette for non-negative distances and is '@' at or beyond the depth |
| PyRenderer.ShadeIndexMonotonic | maze_game.py:171-172 | Farther walls never get a nearer shade |
| PyRenderer.ShadeIndexAgainstBrowser | maze_game.py:171-172 | Truncation and floor give the same shade for non-negative distances and differ below zero |
| PyRenderer.WallHeight | maze_game.py:156-157 | The wall height is clipped to [0, height] |
| PyRenderer.WallHeightNonIncreasing | maze_game.py:156-157 | Farther walls are drawn no taller |
| PyRenderer.RowSplit | maze_game.py:160-161 | Ceiling, wall and floor add up to the height, both are non-negative, and the floor exceeds the ceiling by at most one |
| PyRenderer.ColumnAt | maze_game.py:164-176 | Row r of a column is ' ' above the ceiling line, the shade within the wall, and '.' below it |
| PyRenderer.BuildColumn | maze_game.py:164-176 | The row-by-row loop builds exactly the reference column |
| PyRenderer.Render3D | maze_game.py:147-185 | There are `height` rows, each one character per column, and rows[r][c] is row r of column c |
| PyRenderer.MinimapSamplesInside | maze_game.py:191-199 | Every minimap position samples a cell inside the maze |
| PyRenderer.MinimapUnitScale | maze_game.py:191-199 | When the minimap is the maze's size, it samples each cell at its own position |
| PyRenderer.MinimapWallsAreCells | maze_game.py:187-213 | Away from the player, '#' marks exactly a wall cell |
| PyRenderer.MinimapLine | maze_game.py:196-210 | One line holds `size` characters, one per position |
| PyRenderer.RenderMinimap | maze_game.py:187-213 | A maze with a zero side fails with the division error, and only such a maze. Otherwise there are `size` lines of `size` characters; positions within distance 1 of the player's scaled cell are '@'; every other position is '#' iff its scaled cell is a wall, else ' ' |
| PyEditor.ToggleCell | maze_game.py:247-250 | The cursor cell flips: 1 becomes 0 and anything else becomes 1; no other cell changes; off the grid nothing changes |
| PyEditor.ToggleTwice | maze_game.py:247-250 | Toggling twice restores the maze iff the cursor cell held 0 or 1; any other value comes back as 0 |
| PyEditor.ViewLine | maze_game.py:234-244 | One maze row of the view holds one character per cell |
| PyEditor.Render | maze_game.py:225-245 | Four header lines (title, mode and cursor, key help, blank), then one line per row: 'X' exactly at the cursor, elsewhere '#' iff the cell is a wall, else ' ' |
| PyGame.StartAsWritten | maze_game.py:261-268 | As written, the player starts in a wall cell |
| PyGame.Start | maze_game.py:261-268 | With the corrected constructor, the player starts in an open cell and the cursor is on the grid |
| PyGame.Init | maze_game.py:261-292 | The constructor followed by the generator produces the corrected start state |
| PyGame.StartBoxedIn | maze_game.py:29 | As written, every candidate position is refused at the start: row 1 and column 1 are all wall |
| PyGame.StartCanMove | maze_game.py:78-85 | With the corrected start, a small step east is taken |
| PyGame.Moves | maze_game.py:332-339 | Game-mode moves keep the heading and the open-cell guarantee; with no movement key the player stays |
| PyGame.HandleGameInput | maze_game.py:330-351 | The maze and the editor are untouched. The player ends where the four moves take it. The player stays in open cells. q and e turn the heading by the rotate speed, never wrapped. m switches to the editor |
| PyGame.BoxedStaysPut | maze_game.py:332-339 | A player whom every candidate position leaves in place is not moved by any combination of movement keys |
| PyGame.StartFrozen | maze_game.py:330-339 | As written, no key and no heading ever moves the starting player |
| PyGame.HandleEditorInput | maze_game.py:353-398 | A cursor key moves the cursor by the prioritised step, clamped, and nothing else. Otherwise the first held of space, r, e, m and ctrl+l does its job alone: space toggles the cursor cell, r and e set the editing mode, m returns to the game, ctrl+l loads a stored record and puts the player on its start, and ignores an unreadable file. With none held nothing changes. Conversely, the cursor, maze, editing mode, mode, player and file change only by those keys |
| PyGame.SaveUnreachable | maze_game.py:358-390 | As written, no key state the keyboard can report writes the file: ctrl+s comes with 's', which moves the cursor down first |
| PyGame.HandleEditorInputSaveFirst | maze_game.py:387-390 | With ctrl+s tested first, ctrl+s saves the current maze and changes nothing else; every other key state is handled as written; the file changes only by ctrl+s |
| PyGame.SaveThenLoad | maze_game.py:387-398 | With the save reachable, ctrl+s then ctrl+l restores the maze and puts the player on its start cell, heading, editor and mode kept |
| PyGame.SpaceTwice | maze_game.py:375-377 | Two presses of space restore the maze when the cursor cell holds 0 or 1 |

## Left out

- Canvas, DOM and drawing are left out: colours, brightness, `fillText`, fullscreen handling and the event listeners (game.js:149-165, 395-557, 621-750). This includes the drawing loops of `render3D`, the browser minimap (game.js:250-289) and the browser editor view (game.js:305-334). They produce pixels, not values.
- File I/O is left out: the Blob download, `FileReader`, JSON parsing and writing, `alert` and `print`. Saving and loading are modelled as the five-field record `Grid.Snapshot`. A terminal save file that exists but is malformed is treated as unreadable. A record missing some keys would make Python assign some fields before failing; that is not modelled.
- The `keyboard` library, `time.sleep`, clearing the screen, the main loops and the Escape/quit flag are left out (maze_game.py:294-328, 400-428). These are terminal I/O and timing. The terminal's combined screen (3D view plus minimap plus a status line with formatted floats) is left out with them.
- Trig and sqrt are inputs: the cosine and sine of the heading, the ray direction, and the fisheye cosine. The strafes use the exact identities cos(a ∓ π/2) = ±sin a and sin(a ∓ π/2) = ∓cos a in place of the source's library calls on the shifted angle.
- `JsRenderer.CastRay` requires an exactly unit direction. Floating-point cosines and sines meet this only approximately.
- `PyRenderer.CastRay` has the same unit-direction requirement.
- The rays of a frame are not linked to the renderers. `PyRenderer.Render3D` and `JsRenderer.ColumnSlab` take each column's ray distance as input.
- Floating-point rounding is not modelled. The source accumulates `x += dx*step`, while the model computes each sample exactly; near a cell boundary the two can disagree on which sample is first in a wall. Likewise, `2π` in `NormalizeAngle` is the real `2·3.141592653589793`.
- `JsPlayer.NormalizeAngle` states the range and whole-turn difference in exact reals. Under float rounding the source keeps the range but only approximately the difference.
- `PyRenderer.WallHeight` states only the clipping. The float quotient `height/(distance+0.0001)` is truncated as written, and nothing more about it is claimed.
- JsMaze.IsWall requires a well-formed grid (`Grid.Valid`: as many rows as the height, each as long as the width). A loaded record with a ragged or short grid would make game.js:19 read `undefined` (an open cell) or throw a TypeError; that is not modelled.
- JsMaze.SetWall requires a well-formed grid for the same reason; on a ragged loaded grid game.js:25 may write past a row's end or throw.
- PyMaze.IsWall requires a well-formed grid; on a ragged loaded grid maze_game.py:37 raises IndexError, which is not modelled.
- PyMaze.SetWall requires a well-formed grid; on a ragged loaded grid maze_game.py:42 raises IndexError, which is not modelled.
- PyRenderer.MinimapLine requires both maze sides positive: it is the inner loop of `render_minimap`, run only after the two scale divisions have succeeded.
- JS `Game.handleInput` in game mode and the other key handlers use a held-keys map filled by keydown/keyup listeners; the model takes that map as a record.
- `JsGame.Init`: the game-loop start, canvas lookup and renderer construction are left out.
- Ramps, paint strokes and undo history do not appear in this code and are not modelled.

## Findings

| source | as written | input that shows it | evidently intended | confidence | as-written member | corrected member |
|---|---|---|---|---|---|---|
| maze_game.py:29 | A fresh `Maze` fills every cell with 1 (wall). `generate_default_maze` then only adds walls and clears four openings, so the default maze is solid rock. | `Game()` at start-up, then any key in game mode: the player at (1.5, 1.5) stands in wall cell (1, 1), and every candidate is tested against row 1 or column 1, which are all wall, so no move is ever taken | A fresh grid starts empty, as the browser's does (game.js:8), so the default layout has open corridors and the player starts in an open cell | high; not executed | PyGame.StartBoxedIn | PyGame.Init |
| maze_game.py:358-390 | `handle_editor_input` tests `is_pressed('s')` for the cursor before it tests `is_pressed('ctrl+s')` for the save. The library reports 's' as held whenever ctrl+s is, so the save branch never runs. | Ctrl+S in the editor: the cursor moves down one row and `maze.json` is not written | Ctrl+S saves the maze | high; not executed | PyGame.SaveUnreachable | PyGame.HandleEditorInputSaveFirst |

=== FILE: camera.dfy ===
/** Camera constants and the per-column ray angle shared by both renderers.
    Angles are reals; the platform's double `Math.PI`/`math.pi` is written out. */
module Camera {

  /** Cosine and sine of the heading at one tick; the strafes derive theirs
      from them. */
  datatype Trig = Trig(cosA: real, sinA: real)

  const Pi: real := 3.141592653589793
  const TwoPi: real := 2.0 * Pi

  /** Field of view: a third of a half turn (60 degrees). */
  const Fov: real := Pi / 3.0

  /** `angle - fov/2 + (col/columns) * fov`: the ray for screen column `col`. */
  function RayAngle(angle: real, col: int, columns: int): real
    requires 0 <= col < columns
  {
    angle - Fov / 2.0 + (col as real / columns as real) * Fov
  }

  /** Every column's ray lies in the half-open field of view centred on the heading,
      the leftmost column on its left edge. */
  lemma RayWithinFieldOfView(angle: real, col: int, columns: int)
    requires 0 <= col < columns
    ensures angle - Fov / 2.0 <= RayAngle(angle, col, columns) < angle + Fov / 2.0
    ensures col == 0 ==> RayAngle(angle, col, columns) == angle - Fov / 2.0
  {
    var t := col as real / columns as real;
    assert 0.0 <= t < 1.0 by {
      assert t * columns as real == col as real;
    }
    assert t * Fov < Fov;
  }
}

=== FILE: cursor.dfy ===
/** The editor cursor both front ends share: a cell position and a draw/erase
    mode, moved one clamped step at a time by the w, s, a and d keys, and the
    switch between driving the player and driving the cursor. */
module Cursor {
  import opened Numeric
  import opened Grid

  /** Whether the keys drive the player (game) or the cursor (editor). */
  datatype Mode = GameMode | EditorMode

  datatype EditMode = Draw | Erase

  datatype Editor = Editor(cursorX: int, cursorY: int, mode: EditMode)

  /** A fresh editor: cursor (1, 1), draw mode. */
  function New(): Editor {
    Editor(1, 1, Draw)
  }

  /** `moveCursor` / `move_cursor`: each coordinate moved and clamped to
      [0, size - 1]. */
  function MoveCursor(m: Maze, e: Editor, dx: int, dy: int): (e': Editor)
    ensures e'.mode == e.mode
    ensures 1 <= m.width && 1 <= m.height ==> InBounds(m, e'.cursorX, e'.cursorY)
    ensures 0 <= e.cursorX + dx < m.width ==> e'.cursorX == e.cursorX + dx
    ensures 0 <= e.cursorY + dy < m.height ==> e'.cursorY == e.cursorY + dy
    // a step off the grid stops on the edge it crossed
    ensures 1 <= m.width && e.cursorX + dx < 0 ==> e'.cursorX == 0
    ensures 1 <= m.width && m.width <= e.cursorX + dx ==> e'.cursorX == m.width - 1
    ensures 1 <= m.height && e.cursorY + dy < 0 ==> e'.cursorY == 0
    ensures 1 <= m.height && m.height <= e.cursorY + dy ==> e'.cursorY == m.height - 1
    ensures Abs(e'.cursorX - e.cursorX) <= Abs(dx) || !(0 <= e.cursorX < m.width)
    ensures Abs(e'.cursorY - e.cursorY) <= Abs(dy) || !(0 <= e.cursorY < m.height)
  {
    e.(cursorX := Clamp(0, m.width - 1, e.cursorX + dx),
       cursorY := Clamp(0, m.height - 1, e.cursorY + dy))
  }

  /** One of the four cursor keys is held. */
  predicate AnyCursorKey(w: bool, s: bool, a: bool, d: bool) {
    w || s || a || d
  }

  /** The one cursor step the held keys select: 'w' wins over 's', 's' over
      'a', 'a' over 'd'. */
  function CursorStep(w: bool, s: bool, a: bool, d: bool): (step: (int, int))
    ensures Abs(step.0) + Abs(step.1) == (if AnyCursorKey(w, s, a, d) then 1 else 0)
    ensures w ==> step == (0, -1)
    ensures !w && s ==> step == (0, 1)
    ensures !w && !s && a ==> step == (-1, 0)
    ensures !w && !s && !a && d ==> step == (1, 0)
  {
    if w then (0, -1)
    else if s then (0, 1)
    else if a then (-1, 0)
    else if d then (1, 0)
    else (0, 0)
  }
}

=== FILE: grid.dfy ===
/** The tile grid both front ends share: a width, a height, row-major cells
    (0 empty, 1 wall) and the start and end positions. */
module Grid {

  datatype Maze = Maze(width: int, height: int, grid: seq<seq<int>>, startPos: (int, int), endPos: (int, int))

  /** Every row exists and has `width` cells, as the constructors build it. */
  predicate Valid(m: Maze) {
    && 0 <= m.width
    && 0 <= m.height
    && |m.grid| == m.height
    && forall y :: 0 <= y < m.height ==> |m.grid[y]| == m.width
  }

  predicate InBounds(m: Maze, x: int, y: int) {
    0 <= x < m.width && 0 <= y < m.height
  }

  function Cell(m: Maze, x: int, y: int): int
    requires Valid(m)
    requires InBounds(m, x, y)
  {
    m.grid[y][x]
  }

  /** Same dimensions, start and end: only cell contents may differ. */
  predicate SameFrame(a: Maze, b: Maze) {
    a.width == b.width && a.height == b.height && a.startPos == b.startPos && a.endPos == b.endPos
  }

  /** A `width` by `height` grid with every cell set to `v`. */
  function Filled(width: nat, height: nat, v: int): (g: seq<seq<int>>)
    ensures |g| == height
    ensures forall y :: 0 <= y < height ==> |g[y]| == width
    ensures forall y, x :: 0 <= y < height && 0 <= x < width ==> g[y][x] == v
  {
    seq(height, _ => seq(width, _ => v))
  }

  /** A fresh `width` by `height` maze with every cell `v`, start (1, 1) and
      end (width-2, height-2), as both constructors build it. */
  function Fresh(width: nat, height: nat, v: int): (m: Maze)
    ensures Valid(m) && m.width == width && m.height == height
    ensures forall x, y :: InBounds(m, x, y) ==> Cell(m, x, y) == v
    ensures m.startPos == (1, 1) && m.endPos == (width - 2, height - 2)
  {
    Maze(width, height, Filled(width, height, v), (1, 1), (width - 2, height - 2))
  }

  /** The bounds-checked cell write under both `setWall` and `set_wall`: an
      existing cell takes `v`, a missing one leaves the maze as it was. */
  function SetCell(m: Maze, x: int, y: int, v: int): (m': Maze)
    requires Valid(m)
    ensures Valid(m') && SameFrame(m', m)
    ensures InBounds(m, x, y) ==> Cell(m', x, y) == v
    ensures !InBounds(m, x, y) ==> m' == m
    ensures forall cx, cy :: InBounds(m, cx, cy) && (cx != x || cy != y) ==> Cell(m', cx, cy) == Cell(m, cx, cy)
  {
    if InBounds(m, x, y) then m.(grid := m.grid[y := m.grid[y][x := v]]) else m
  }

  /** Two valid mazes with the same frame and the same cells are equal. */
  lemma {:induction false} SameCells(a: Maze, b: Maze)
    requires Valid(a) && Valid(b) && SameFrame(a, b)
    requires forall x, y :: InBounds(a, x, y) ==> Cell(a, x, y) == Cell(b, x, y)
    ensures a == b
  {
    forall y | 0 <= y < a.height
      ensures a.grid[y] == b.grid[y]
    {
      assert forall x :: 0 <= x < a.width ==> a.grid[y][x] == Cell(a, x, y);
    }
  }

  /** The record both front ends save and load (a JSON object in the source):
      the five fields, as they are. */
  datatype Snapshot = Snapshot(width: int, height: int, grid: seq<seq<int>>, startPos: (int, int), endPos: (int, int))

  function Save(m: Maze): Snapshot {
    Snapshot(m.width, m.height, m.grid, m.startPos, m.endPos)
  }

  /** Loading: all five fields replaced from the record, nothing validated. */
  function Load(m: Maze, data: Snapshot): Maze {
    Maze(data.width, data.height, data.grid, data.startPos, data.endPos)
  }

  /** Loading what was saved restores the maze exactly, whatever was loaded over. */
  lemma LoadSaveRoundTrip(m: Maze, current: Maze)
    ensures Load(current, Save(m)) == m
  {
  }

  /** Loading keeps nothing of the maze it replaces, and saving the result gives back the record. */
  lemma LoadReplacesAll(a: Maze, b: Maze, data: Snapshot)
    ensures Load(a, data) == Load(b, data)
    ensures Save(Load(a, data)) == data
  {
  }
}

=== FILE: js_editor.dfy ===
/** The browser front end's `Editor` (game.js): a cursor, a draw/erase mode, and
    the cell edits it makes through `JsMaze.SetWall`. */
module JsEditor {
  import opened Numeric
  import opened Grid
  import opened Cursor
  import JsMaze

  /** Side of the square editor canvas, in pixels. */
  const CanvasSize: real := 600.0

  /** `toggleCell`: in draw mode the cursor cell becomes a wall, otherwise it is
      cleared; no other cell changes. */
  function ToggleCell(m: Maze, e: Editor): (m': Maze)
    requires Valid(m)
    ensures Valid(m') && SameFrame(m', m)
    ensures InBounds(m, e.cursorX, e.cursorY) ==>
      Cell(m', e.cursorX, e.cursorY) == (if e.mode == Draw then 1 else 0)
    ensures !InBounds(m, e.cursorX, e.cursorY) ==> m' == m
    ensures forall x, y :: InBounds(m, x, y) && (x != e.cursorX || y != e.cursorY) ==>
      Cell(m', x, y) == Cell(m, x, y)
  {
    JsMaze.SetWallOnIntegers(m, e.cursorX, e.cursorY, e.mode == Draw);
    JsMaze.SetWall(m, e.cursorX as real, e.cursorY as real, e.mode == Draw)
  }

  /** Setting rather than flipping: a second toggle in the same mode changes nothing. */
  lemma {:induction false} ToggleIdempotent(m: Maze, e: Editor)
    requires Valid(m)
    ensures ToggleCell(ToggleCell(m, e), e) == ToggleCell(m, e)
  {
    var once := ToggleCell(m, e);
    var twice := ToggleCell(once, e);
    forall x, y | InBounds(once, x, y)
      ensures Cell(once, x, y) == Cell(twice, x, y)
    {
    }
    SameCells(once, twice);
  }

  /** `600 / Math.max(width, height)`: the side of one cell on the canvas. */
  function CellSize(m: Maze): real
    requires Max(m.width, m.height) > 0
  {
    CanvasSize / Max(m.width, m.height) as real
  }

  /** The cell column (or row) under canvas coordinate `c`. */
  function ClickCell(m: Maze, c: real): int
    requires Max(m.width, m.height) > 0
  {
    Floor(c / CellSize(m))
  }

  /** Every point of the canvas falls on a cell index below the larger dimension;
      on a square maze, that is a cell of the maze. */
  lemma ClickCellInRange(m: Maze, c: real)
    requires Max(m.width, m.height) > 0
    requires 0.0 <= c < CanvasSize
    ensures 0 <= ClickCell(m, c) < Max(m.width, m.height)
  {
    var n := Max(m.width, m.height) as real;
    assert c / CellSize(m) == c * n / CanvasSize;
    assert c * n < CanvasSize * n;
  }

  /** `handleClick` on canvas-relative coordinates: a click on a cell of the maze
      moves the cursor there and toggles it; any other click changes nothing.
      (With no cells the canvas has none to hit.) */
  function HandleClick(m: Maze, e: Editor, canvasX: real, canvasY: real): (r: (Maze, Editor))
    requires Valid(m)
    ensures Valid(r.0) && SameFrame(r.0, m) && r.1.mode == e.mode
    ensures Max(m.width, m.height) > 0 && InBounds(m, ClickCell(m, canvasX), ClickCell(m, canvasY)) ==>
      r.1 == e.(cursorX := ClickCell(m, canvasX), cursorY := ClickCell(m, canvasY)) && r.0 == ToggleCell(m, r.1)
    ensures Max(m.width, m.height) == 0 || !InBounds(m, ClickCell(m, canvasX), ClickCell(m, canvasY)) ==>
      r == (m, e)
  {
    if Max(m.width, m.height) == 0 then (m, e)
    else
      var cellX := ClickCell(m, canvasX);
      var cellY := ClickCell(m, canvasY);
      if 0 <= cellX < m.width && 0 <= cellY < m.height then
        var e' := e.(cursorX := cellX, cursorY := cellY);
        (ToggleCell(m, e'), e')
      else (m, e)
  }

  /** On a square maze every click inside the canvas lands on a cell, which
      becomes the cursor and takes the mode's value. */
  lemma SquareClickAlwaysEdits(m: Maze, e: Editor, canvasX: real, canvasY: real)
    requires Valid(m) && m.width == m.height && m.width > 0
    requires 0.0 <= canvasX < CanvasSize && 0.0 <= canvasY < CanvasSize
    ensures var r := HandleClick(m, e, canvasX, canvasY);
      && InBounds(m, r.1.cursorX, r.1.cursorY)
      && Cell(r.0, r.1.cursorX, r.1.cursorY) == (if e.mode == Draw then 1 else 0)
  {
    ClickCellInRange(m, canvasX);
    ClickCellInRange(m, canvasY);
  }
}

=== FILE: js_game.dfy ===
/** The browser front end's per-frame input step (`Game.handleInput` in game.js):
    movement and rotation in game mode, a debounced cursor step in editor mode,
    and a debounced switch between the two. Keys arrive as a flag record, the
    clock as `now` in milliseconds, and the tick's cosines and sines as inputs. */
module JsGame {
  import opened Numeric
  import opened Grid
  import opened Cursor
  import Camera
  import Layout
  import JsMaze
  import JsPlayer

  /** The entries of the `keys` table a tick reads. */
  datatype Keys = Keys(w: bool, a: bool, s: bool, d: bool, q: bool, e: bool, m: bool,
                       up: bool, down: bool, left: bool, right: bool)

  const NoKeys: Keys := Keys(false, false, false, false, false, false, false, false, false, false, false)

  datatype Game = Game(maze: Maze, player: JsPlayer.Player, editor: Cursor.Editor, mode: Mode,
                       keys: Keys, lastModeToggle: int, lastEditorMove: int)

  /** Minimum milliseconds between two mode switches. */
  const ModeToggleDelay: int := 300

  /** Minimum milliseconds between two editor cursor steps. */
  const EditorMoveDelay: int := 100

  /** What every tick keeps: the player stands in an open cell with a normalised
      heading, and the editor cursor is on a cell. */
  predicate Inv(g: Game) {
    && Valid(g.maze)
    && !JsMaze.IsWall(g.maze, g.player.x, g.player.y)
    && 0.0 <= g.player.angle < Camera.TwoPi
    && InBounds(g.maze, g.editor.cursorX, g.editor.cursorY)
  }

  /** The constructor: a default 20 by 20 maze, the player at (1.5, 1.5) facing 0,
      a fresh editor (cursor at (1, 1), draw mode), game mode, no keys held, both debounce clocks at 0. */
  method Init() returns (g: Game)
    ensures Inv(g)
    ensures g.maze == Layout.Expected(JsMaze.New(20, 20))
    ensures g.player == JsPlayer.Player(1.5, 1.5, 0.0)
    ensures g.mode == GameMode && g.keys == NoKeys && g.lastModeToggle == 0 && g.lastEditorMove == 0
  {
    var empty := JsMaze.New(20, 20);
    var maze := Layout.GenerateDefault(empty);
    assert Cell(maze, 1, 1) == Layout.DefaultCell(empty, 1, 1) == 0;
    var angle := JsPlayer.NormalizeAngle(0.0);
    g := Game(maze, JsPlayer.Player(1.5, 1.5, angle), Cursor.New(), GameMode, NoKeys, 0, 0);
  }

  /** Net heading change requested by the rotation keys this tick. */
  function Turn(k: Keys): real {
    (if k.q || k.left then -JsPlayer.RotateSpeed else 0.0) + (if k.e || k.right then JsPlayer.RotateSpeed else 0.0)
  }

  /** Whole turns compose: if b differs from a, and c from b, by whole turns, so does c from a. */
  lemma WholeTurnsCompose(a: real, b: real, c: real)
    requires IsInteger((b - a) / Camera.TwoPi) && IsInteger((c - b) / Camera.TwoPi)
    ensures IsInteger((c - a) / Camera.TwoPi)
  {
    assert (c - a) / Camera.TwoPi == (b - a) / Camera.TwoPi + (c - b) / Camera.TwoPi;
    IntegerSum((b - a) / Camera.TwoPi, (c - b) / Camera.TwoPi);
  }

  /** The four moves of a game tick, in source order, each gated by its keys. */
  function Moves(m: Maze, p: JsPlayer.Player, k: Keys, t: Camera.Trig): (q: JsPlayer.Player)
    requires Valid(m)
    ensures q.angle == p.angle
    ensures !JsMaze.IsWall(m, p.x, p.y) ==> !JsMaze.IsWall(m, q.x, q.y)
    ensures !(k.w || k.up || k.s || k.down || k.a || k.d) ==> q == p
  {
    var p1 := if k.w || k.up then JsPlayer.MoveForward(m, p, t.cosA, t.sinA, JsPlayer.MoveSpeed) else p;
    var p2 := if k.s || k.down then JsPlayer.MoveBackward(m, p1, t.cosA, t.sinA, JsPlayer.MoveSpeed) else p1;
    var p3 := if k.a then JsPlayer.StrafeLeft(m, p2, t.cosA, t.sinA, JsPlayer.MoveSpeed) else p2;
    if k.d then JsPlayer.StrafeRight(m, p3, t.cosA, t.sinA, JsPlayer.MoveSpeed) else p3
  }

  /** The two rotations of a game tick, each followed by `normalizeAngle`: the
      heading ends in [0, 2π) (when it started there or turned), a whole number
      of turns away from the requested one. */
  method Rotate(angle: real, k: Keys) returns (r: real)
    ensures 0.0 <= angle < Camera.TwoPi ==> 0.0 <= r < Camera.TwoPi
    ensures (k.q || k.left || k.e || k.right) ==> 0.0 <= r < Camera.TwoPi
    ensures IsInteger((r - (angle + Turn(k))) / Camera.TwoPi)
    ensures !(k.q || k.left || k.e || k.right) ==> r == angle
  {
    r := angle;
    if k.q || k.left {
      r := JsPlayer.NormalizeAngle(r - JsPlayer.RotateSpeed);
    }
    var mid := r;
    if k.e || k.right {
      r := JsPlayer.NormalizeAngle(r + JsPlayer.RotateSpeed);
    }
    if (k.q || k.left) && (k.e || k.right) {
      assert (mid + JsPlayer.RotateSpeed) - angle == mid - (angle - JsPlayer.RotateSpeed);
      WholeTurnsCompose(angle, mid + JsPlayer.RotateSpeed, r);
      assert Turn(k) == 0.0;
    } else if !(k.q || k.left || k.e || k.right) {
      assert (r - (angle + Turn(k))) / Camera.TwoPi == 0.0;
    }
  }

  /** The game-mode half of a tick: the moves, then the rotations. */
  method GameTick(m: Maze, p: JsPlayer.Player, k: Keys, t: Camera.Trig) returns (p': JsPlayer.Player)
    requires Valid(m)
    ensures p'.x == Moves(m, p, k, t).x && p'.y == Moves(m, p, k, t).y
    ensures !JsMaze.IsWall(m, p.x, p.y) ==> !JsMaze.IsWall(m, p'.x, p'.y)
    ensures 0.0 <= p.angle < Camera.TwoPi ==> 0.0 <= p'.angle < Camera.TwoPi
    ensures IsInteger((p'.angle - (p.angle + Turn(k))) / Camera.TwoPi)
  {
    p' := Moves(m, p, k, t);
    var a := Rotate(p'.angle, k);
    p' := p'.(angle := a);
  }

  /** The editor-mode cursor half of a tick: one step, by priority, once more than
      `EditorMoveDelay` ms have passed since the last step. */
  function CursorTick(m: Maze, e: Cursor.Editor, k: Keys, now: int, lastMove: int): (r: (Cursor.Editor, int))
    ensures now - lastMove > EditorMoveDelay && AnyCursorKey(k.w, k.s, k.a, k.d) ==>
      r == (Cursor.MoveCursor(m, e, CursorStep(k.w, k.s, k.a, k.d).0, CursorStep(k.w, k.s, k.a, k.d).1), now)
    ensures !(now - lastMove > EditorMoveDelay && AnyCursorKey(k.w, k.s, k.a, k.d)) ==> r == (e, lastMove)
    ensures InBounds(m, e.cursorX, e.cursorY) ==>
      InBounds(m, r.0.cursorX, r.0.cursorY) &&
      Abs(r.0.cursorX - e.cursorX) + Abs(r.0.cursorY - e.cursorY) <= 1
  {
    if now - lastMove > EditorMoveDelay then
      if k.w then (Cursor.MoveCursor(m, e, 0, -1), now)
      else if k.s then (Cursor.MoveCursor(m, e, 0, 1), now)
      else if k.a then (Cursor.MoveCursor(m, e, -1, 0), now)
      else if k.d then (Cursor.MoveCursor(m, e, 1, 0), now)
      else (e, lastMove)
    else (e, lastMove)
  }

  /** `handleInput` for one frame at time `now`. */
  method HandleInput(g: Game, now: int, t: Camera.Trig) returns (g': Game)
    requires Valid(g.maze)
    ensures g'.maze == g.maze
    ensures Inv(g) ==> Inv(g')
    ensures g'.mode != g.mode <==> g.keys.m && now - g.lastModeToggle > ModeToggleDelay
    ensures g'.mode != g.mode ==> g'.lastModeToggle == now && g'.keys == g.keys.(m := false)
    ensures g'.mode == g.mode ==> g'.lastModeToggle == g.lastModeToggle && g'.keys == g.keys
    ensures g.mode == GameMode ==> g'.editor == g.editor && g'.lastEditorMove == g.lastEditorMove
    ensures g.mode == GameMode ==>
      g'.player.x == Moves(g.maze, g.player, g.keys, t).x && g'.player.y == Moves(g.maze, g.player, g.keys, t).y
    ensures g.mode == GameMode ==> IsInteger((g'.player.angle - (g.player.angle + Turn(g.keys))) / Camera.TwoPi)
    ensures g.mode == EditorMode ==> g'.player == g.player
    ensures g.mode == EditorMode ==> (g'.editor, g'.lastEditorMove) == CursorTick(g.maze, g.editor, g.keys, now, g.lastEditorMove)
  {
    g' := g;
    if g.mode == GameMode {
      var p := GameTick(g.maze, g.player, g.keys, t);
      g' := g'.(player := p);
    } else {
      var (e, last) := CursorTick(g.maze, g.editor, g.keys, now, g.lastEditorMove);
      g' := g'.(editor := e, lastEditorMove := last);
    }
    if g.keys.m && now - g.lastModeToggle > ModeToggleDelay {
      g' := g'.(mode := if g.mode == GameMode then EditorMode else GameMode,
                lastModeToggle := now, keys := g'.keys.(m := false));
    }
  }
}

=== FILE: js_maze.dfy ===
/** The browser front end's `Maze` (game.js): cells addressed with `Math.floor`,
    a fresh grid entirely empty. */
module JsMaze {
  import opened Numeric
  import opened Grid
  import Layout

  /** `new Maze(width, height)`: all cells empty, start (1, 1), end (width-2, height-2). */
  function New(width: nat, height: nat): (m: Maze)
    ensures Valid(m) && m.width == width && m.height == height
    ensures forall x, y :: InBounds(m, x, y) ==> Cell(m, x, y) == 0
    ensures m.startPos == (1, 1) && m.endPos == (width - 2, height - 2)
  {
    Fresh(width, height, 0)
  }

  /** A point is a wall when it lies off the grid or its cell holds 1. */
  function IsWall(m: Maze, x: real, y: real): (b: bool)
    requires Valid(m)
    ensures x < 0.0 || y < 0.0 || x >= m.width as real || y >= m.height as real ==> b
    ensures 0.0 <= x < m.width as real && 0.0 <= y < m.height as real ==>
      (b <==> Cell(m, Floor(x), Floor(y)) == 1)
  {
    var ix := Floor(x);
    var iy := Floor(y);
    if ix < 0 || ix >= m.width || iy < 0 || iy >= m.height then true
    else m.grid[iy][ix] == 1
  }

  /** Every point of one cell is classified alike. */
  lemma IsWallPerCell(m: Maze, x: real, y: real, x': real, y': real)
    requires Valid(m)
    requires Floor(x) == Floor(x') && Floor(y) == Floor(y')
    ensures IsWall(m, x, y) == IsWall(m, x', y')
  {
  }

  /** Sets the cell under (x, y) to 1 or 0; a point off the grid changes nothing. */
  function SetWall(m: Maze, x: real, y: real, isWall: bool): (m': Maze)
    requires Valid(m)
    ensures Valid(m') && SameFrame(m', m)
    ensures 0.0 <= x < m.width as real && 0.0 <= y < m.height as real ==>
      Cell(m', Floor(x), Floor(y)) == (if isWall then 1 else 0) && IsWall(m', x, y) == isWall
    ensures !(0.0 <= x < m.width as real && 0.0 <= y < m.height as real) ==> m' == m
    ensures forall cx, cy :: InBounds(m, cx, cy) && (cx != Floor(x) || cy != Floor(y)) ==>
      Cell(m', cx, cy) == Cell(m, cx, cy)
  {
    SetCell(m, Floor(x), Floor(y), if isWall then 1 else 0)
  }

  /** On whole-number coordinates, as `generateDefault` and the editor pass them,
      `setWall` is the plain bounds-checked cell write. */
  lemma SetWallOnIntegers(m: Maze, x: int, y: int, isWall: bool)
    requires Valid(m)
    ensures SetWall(m, x as real, y as real, isWall) == SetCell(m, x, y, if isWall then 1 else 0)
  {
  }

  /** The default layout generated on a fresh 20 by 20 maze: a full border,
      the four openings and the corner (15, 15) open, the ring walls in place,
      every other cell empty. */
  lemma {:induction false} FreshDefaultLayout()
    ensures var m := Layout.Expected(New(20, 20));
      && (forall x, y :: InBounds(m, x, y) && Layout.OnBorder(m, x, y) ==> IsWall(m, x as real, y as real))
      && !IsWall(m, 10.0, 5.0) && !IsWall(m, 10.0, 15.0) && !IsWall(m, 5.0, 10.0) && !IsWall(m, 15.0, 10.0)
      && !IsWall(m, 15.0, 15.0)
      && (forall x, y :: InBounds(m, x, y) ==>
            (Cell(m, x, y) == 1 <==> !Layout.IsOpening(x, y) && (Layout.OnBorder(m, x, y) || Layout.OnRing(x, y))))
  {
    var m0 := New(20, 20);
    var m := Layout.Expected(m0);
    forall x, y | InBounds(m, x, y) && Layout.OnBorder(m, x, y)
      ensures IsWall(m, x as real, y as real)
    {
      assert Floor(x as real) == x && Floor(y as real) == y;
      assert Cell(m, x, y) == Layout.DefaultCell(m0, x, y);
    }
  }
}

=== FILE: js_player.dfy ===
/** The browser front end's `Player` (game.js): a real position, a heading, and
    wall-sliding moves tested against `JsMaze.IsWall`. The cosines and sines the
    source computes are the caller's inputs. */
module JsPlayer {
  import opened Numeric
  import opened Grid
  import JsMaze
  import Camera

  datatype Player = Player(x: real, y: real, angle: real)

  const MoveSpeed: real := 0.05
  const RotateSpeed: real := 0.05

  /** Brings a heading into [0, 2π) by whole turns: first adding turns while it is
      negative, then subtracting them while it is at least a full turn. */
  method NormalizeAngle(angle: real) returns (r: real)
    ensures 0.0 <= r < Camera.TwoPi
    ensures IsInteger((r - angle) / Camera.TwoPi)
    ensures 0.0 <= angle < Camera.TwoPi ==> r == angle
  {
    r := angle;
    ghost var turns: int := 0;
    while r < 0.0
      invariant r == angle + turns as real * Camera.TwoPi
      invariant angle >= 0.0 ==> r == angle
      decreases -r.Floor
    {
      r := r + Camera.TwoPi;
      turns := turns + 1;
    }
    while r >= Camera.TwoPi
      invariant 0.0 <= r
      invariant r == angle + turns as real * Camera.TwoPi
      invariant angle < Camera.TwoPi && 0.0 <= angle ==> r == angle
      decreases r.Floor
    {
      r := r - Camera.TwoPi;
      turns := turns - 1;
    }
    assert (r - angle) / Camera.TwoPi == turns as real;
  }

  /** Wall sliding: the new x is taken only if (newX, y) is open, then the new y
      only if (x', newY) is open, x' being the x just decided. */
  function Slide(m: Maze, p: Player, newX: real, newY: real): (q: Player)
    requires Valid(m)
    ensures q.angle == p.angle
    ensures (q.x == p.x || q.x == newX) && (q.y == p.y || q.y == newY)
    ensures !JsMaze.IsWall(m, p.x, p.y) ==> !JsMaze.IsWall(m, q.x, q.y)
    ensures !JsMaze.IsWall(m, p.x, p.y) ==>
      0.0 <= q.x < m.width as real && 0.0 <= q.y < m.height as real
  {
    var x := if !JsMaze.IsWall(m, newX, p.y) then newX else p.x;
    var y := if !JsMaze.IsWall(m, x, newY) then newY else p.y;
    Player(x, y, p.angle)
  }

  /** Diagonal movement into a corner: each axis is decided on its own, so a
      blocked x still lets y move and a blocked y still lets x move. */
  lemma SlideAxes(m: Maze, p: Player, newX: real, newY: real)
    requires Valid(m)
    ensures JsMaze.IsWall(m, newX, p.y) && !JsMaze.IsWall(m, p.x, newY) ==>
      Slide(m, p, newX, newY) == p.(y := newY)
    ensures !JsMaze.IsWall(m, newX, p.y) && JsMaze.IsWall(m, newX, newY) ==>
      Slide(m, p, newX, newY) == p.(x := newX)
    ensures !JsMaze.IsWall(m, newX, p.y) && !JsMaze.IsWall(m, newX, newY) ==>
      Slide(m, p, newX, newY) == p.(x := newX, y := newY)
    ensures JsMaze.IsWall(m, newX, p.y) && JsMaze.IsWall(m, p.x, newY) ==>
      Slide(m, p, newX, newY) == p
  {
  }

  /** `moveForward`: the candidate is (x + cos·d, y + sin·d), with cos and sin of the heading. */
  function MoveForward(m: Maze, p: Player, cosA: real, sinA: real, distance: real): (q: Player)
    requires Valid(m)
    ensures q.angle == p.angle
    ensures (q.x == p.x || q.x == p.x + cosA * distance) && (q.y == p.y || q.y == p.y + sinA * distance)
    ensures !JsMaze.IsWall(m, p.x, p.y) ==> !JsMaze.IsWall(m, q.x, q.y)
  {
    Slide(m, p, p.x + cosA * distance, p.y + sinA * distance)
  }

  /** `moveBackward`: the candidate is (x - cos·d, y - sin·d). */
  function MoveBackward(m: Maze, p: Player, cosA: real, sinA: real, distance: real): (q: Player)
    requires Valid(m)
    ensures q.angle == p.angle
    ensures (q.x == p.x || q.x == p.x - cosA * distance) && (q.y == p.y || q.y == p.y - sinA * distance)
    ensures !JsMaze.IsWall(m, p.x, p.y) ==> !JsMaze.IsWall(m, q.x, q.y)
  {
    Slide(m, p, p.x - cosA * distance, p.y - sinA * distance)
  }

  /** `strafeLeft`: the direction is the heading less a quarter turn, whose cosine
      and sine are sin and -cos of the heading. */
  function StrafeLeft(m: Maze, p: Player, cosA: real, sinA: real, distance: real): (q: Player)
    requires Valid(m)
    ensures q.angle == p.angle
    ensures (q.x == p.x || q.x == p.x + sinA * distance) && (q.y == p.y || q.y == p.y - cosA * distance)
    ensures !JsMaze.IsWall(m, p.x, p.y) ==> !JsMaze.IsWall(m, q.x, q.y)
  {
    Slide(m, p, p.x + sinA * distance, p.y - cosA * distance)
  }

  /** `strafeRight`: the direction is the heading plus a quarter turn, whose cosine
      and sine are -sin and cos of the heading. */
  function StrafeRight(m: Maze, p: Player, cosA: real, sinA: real, distance: real): (q: Player)
    requires Valid(m)
    ensures q.angle == p.angle
    ensures (q.x == p.x || q.x == p.x - sinA * distance) && (q.y == p.y || q.y == p.y + cosA * distance)
    ensures !JsMaze.IsWall(m, p.x, p.y) ==> !JsMaze.IsWall(m, q.x, q.y)
  {
    Slide(m, p, p.x - sinA * distance, p.y + cosA * distance)
  }
}

=== FILE: js_renderer.dfy ===
/** The browser front end's `Renderer` (game.js): the ray march against
    `JsMaze.IsWall` and the per-column slab and shade arithmetic of `render3D`.
    Canvas drawing is not part of this model. */
module JsRenderer {
  import opened Numeric
  import opened Grid
  import opened Ray
  import JsMaze

  /** Sample k of the ray from (sx, sy) along (dx, dy) lies in a wall. */
  predicate HitsAt(m: Maze, sx: real, sy: real, dx: real, dy: real, k: nat)
    requires Valid(m)
  {
    JsMaze.IsWall(m, SampleCoord(sx, dx, k), SampleCoord(sy, dy, k))
  }

  /** `HitsAt` as the test `Ray.March` searches with. */
  function Hits(m: Maze, sx: real, sy: real, dx: real, dy: real): nat -> bool {
    (k: nat) => Valid(m) && HitsAt(m, sx, sy, dx, dy, k)
  }

  /** On a well-formed maze `Hits` is `HitsAt` at every sample. */
  lemma HitsMeaning(m: Maze, sx: real, sy: real, dx: real, dy: real)
    requires Valid(m)
    ensures forall k: nat :: Hits(m, sx, sy, dx, dy)(k) == HitsAt(m, sx, sy, dx, dy, k)
  {
  }

  /** `castRay`: step by `stepSize` while the step count is below
      `maxDistance / stepSize`, returning at the first sample in a wall.
      (dx, dy) is (cos, sin) of the ray angle; `cosOffset` is the cosine of the
      ray angle minus the heading. */
  method CastRay(m: Maze, startX: real, startY: real, dx: real, dy: real, cosOffset: real) returns (h: RayHit)
    requires Valid(m)
    requires dx * dx + dy * dy == 1.0
    ensures h == March(Hits(m, startX, startY, dx, dy), cosOffset, 0)
    ensures h.Hit? ==> h.sample < Samples && HitsAt(m, startX, startY, dx, dy, h.sample)
    ensures h.Hit? ==> h.distance == SampleDistance(h.sample, cosOffset)
    ensures h.Hit? ==> forall j :: 0 <= j < h.sample ==> !HitsAt(m, startX, startY, dx, dy, j)
    ensures h.Clear? <==> forall j :: 0 <= j < Samples ==> !HitsAt(m, startX, startY, dx, dy, j)
  {
    ghost var hits := Hits(m, startX, startY, dx, dy);
    HitsMeaning(m, startX, startY, dx, dy);
    var x := startX;
    var y := startY;
    var i := 0;
    var bound := Depth as real / StepSize;
    SamplesIsDepthOverStep();
    while (i as real) < bound
      invariant 0 <= i <= Samples && bound == Samples as real
      invariant x == Advance(startX, dx, i) && y == Advance(startY, dy, i)
      invariant March(hits, cosOffset, 0) == March(hits, cosOffset, i)
    {
      AdvanceStep(startX, dx, i);
      AdvanceStep(startY, dy, i);
      x := x + dx * StepSize;
      y := y + dy * StepSize;
      if JsMaze.IsWall(m, x, y) {
        assert hits(i);
        return Hit(i, SampleDistance(i, cosOffset));
      }
      assert !hits(i);
      i := i + 1;
    }
    return Clear;
  }

  /** `Math.min(Math.floor((distance / depth) * (shades.length - 1)), shades.length - 1)`. */
  function ShadeIndex(distance: real): (i: int)
    ensures 0.0 <= distance ==> 0 <= i < |Shades|
    ensures distance >= Depth as real ==> i == |Shades| - 1
    ensures i <= |Shades| - 1
  {
    Min(Floor((distance / Depth as real) * (|Shades| - 1) as real), |Shades| - 1)
  }

  /** Farther walls never get a nearer shade. */
  lemma ShadeIndexMonotonic(d1: real, d2: real)
    requires d1 <= d2
    ensures ShadeIndex(d1) <= ShadeIndex(d2)
  {
    assert (d1 / Depth as real) * 9.0 <= (d2 / Depth as real) * 9.0;
  }

  /** The vertical split of one screen column, in pixels. */
  datatype Slab = Slab(ceiling: real, wall: real, floor: real)

  function RealMin(a: real, b: real): real {
    if a <= b then a else b
  }

  /** `render3D`'s column arithmetic: wall height `min(height / (d + 0.0001), height)`,
      ceiling half of the rest, the floor drawn from the wall's foot to the bottom. */
  function ColumnSlab(height: nat, distance: real): (s: Slab)
    requires 0.0 <= distance
    ensures 0.0 <= s.wall <= height as real
    // the wall is the perspective height height / (distance + 0.0001), clipped to the screen
    ensures s.wall * (distance + 0.0001) <= height as real
    ensures s.wall == height as real || s.wall * (distance + 0.0001) == height as real
    ensures 0.0 <= s.ceiling && s.ceiling == s.floor
    ensures s.ceiling + s.wall + s.floor == height as real
  {
    var perspective := height as real / (distance + 0.0001);
    assert 0.0 <= perspective && perspective * (distance + 0.0001) == height as real;
    var wallHeight := RealMin(perspective, height as real);
    var ceiling := (height as real - wallHeight) / 2.0;
    Slab(ceiling, wallHeight, height as real - ceiling - wallHeight)
  }

  /** Nearer walls are drawn at least as tall. */
  lemma WallHeightNonIncreasing(height: nat, d1: real, d2: real)
    requires 0.0 <= d1 <= d2
    ensures ColumnSlab(height, d2).wall <= ColumnSlab(height, d1).wall
  {
    var h := height as real;
    var a := d1 + 0.0001;
    var b := d2 + 0.0001;
    assert h / b <= h / a by {
      assert (h / b) * b == h;
      assert (h / a) * a == h;
      assert h * a <= h * b;
    }
  }

  /** `Math.floor(width / 10)` columns, each ten pixels wide or a little more. */
  function ColumnCount(width: nat): (n: int)
    ensures 0 <= n && n * 10 <= width < (n + 1) * 10
  {
    Floor(width as real / 10.0)
  }
}

=== FILE: layout.dfy ===
/** The default maze both front ends generate: a border wall, two rings of wall
    segments between indices 5 and 14, and four single-cell openings. */
module Layout {
  import opened Grid

  predicate OnBorder(m: Maze, x: int, y: int) {
    x == 0 || x == m.width - 1 || y == 0 || y == m.height - 1
  }

  /** Rows 5 and 15 for x in 5..14, columns 5 and 15 for y in 5..14; the loops
      stop at 14, so (15, 15) is not on the ring. */
  predicate OnRing(x: int, y: int) {
    || (5 <= x < 15 && (y == 5 || y == 15))
    || (5 <= y < 15 && (x == 5 || x == 15))
  }

  /** The four cells cleared last: (10, 5), (10, 15), (5, 10) and (15, 10). */
  predicate IsOpening(x: int, y: int) {
    || (x == 10 && (y == 5 || y == 15))
    || (y == 10 && (x == 5 || x == 15))
  }

  /** What the generator leaves in cell (x, y) of `m`. */
  function DefaultCell(m: Maze, x: int, y: int): int
    requires Valid(m) && InBounds(m, x, y)
  {
    if IsOpening(x, y) then 0
    else if OnBorder(m, x, y) || OnRing(x, y) then 1
    else Cell(m, x, y)
  }

  /** The layout as a closed form: every existing cell rewritten by `DefaultCell`. */
  function Expected(m: Maze): (r: Maze)
    requires Valid(m)
    ensures Valid(r) && SameFrame(r, m)
    ensures forall x, y :: InBounds(m, x, y) ==> Cell(r, x, y) == DefaultCell(m, x, y)
  {
    m.(grid := seq(m.height, y requires 0 <= y < m.height =>
                 seq(m.width, x requires 0 <= x < m.width => DefaultCell(m, x, y))))
  }

  /** The generator as both sources write it: four wall loops, then four openings,
      each write bounds-checked so a small maze simply loses the cells it lacks. */
  method GenerateDefault(m: Maze) returns (r: Maze)
    requires Valid(m)
    ensures r == Expected(m)
  {
    r := m;
    // Outer walls: top and bottom rows.
    var x := 0;
    while x < m.width
      invariant 0 <= x <= m.width
      invariant Valid(r) && SameFrame(r, m)
      invariant forall cx, cy :: InBounds(m, cx, cy) ==>
        Cell(r, cx, cy) == if (cy == 0 || cy == m.height - 1) && cx < x then 1 else Cell(m, cx, cy)
    {
      r := SetCell(r, x, 0, 1);
      r := SetCell(r, x, m.height - 1, 1);
      x := x + 1;
    }
    // Outer walls: left and right columns.
    var y := 0;
    while y < m.height
      invariant 0 <= y <= m.height
      invariant Valid(r) && SameFrame(r, m)
      invariant forall cx, cy :: InBounds(m, cx, cy) ==>
        Cell(r, cx, cy) ==
          if cy == 0 || cy == m.height - 1 || ((cx == 0 || cx == m.width - 1) && cy < y) then 1 else Cell(m, cx, cy)
    {
      r := SetCell(r, 0, y, 1);
      r := SetCell(r, m.width - 1, y, 1);
      y := y + 1;
    }
    // Inner rings: horizontal segments.
    var i := 5;
    while i < 15
      invariant 5 <= i <= 15
      invariant Valid(r) && SameFrame(r, m)
      invariant forall cx, cy :: InBounds(m, cx, cy) ==>
        Cell(r, cx, cy) ==
          if OnBorder(m, cx, cy) || (5 <= cx < i && (cy == 5 || cy == 15)) then 1 else Cell(m, cx, cy)
    {
      r := SetCell(r, i, 5, 1);
      r := SetCell(r, i, 15, 1);
      i := i + 1;
    }
    // Inner rings: vertical segments.
    i := 5;
    while i < 15
      invariant 5 <= i <= 15
      invariant Valid(r) && SameFrame(r, m)
      invariant forall cx, cy :: InBounds(m, cx, cy) ==>
        Cell(r, cx, cy) ==
          if OnBorder(m, cx, cy) || (5 <= cx < 15 && (cy == 5 || cy == 15)) || (5 <= cy < i && (cx == 5 || cx == 15))
          then 1 else Cell(m, cx, cy)
    {
      r := SetCell(r, 5, i, 1);
      r := SetCell(r, 15, i, 1);
      i := i + 1;
    }
    // Openings.
    r := SetCell(r, 10, 5, 0);
    r := SetCell(r, 10, 15, 0);
    r := SetCell(r, 5, 10, 0);
    r := SetCell(r, 15, 10, 0);
    SameCells(r, Expected(m));
  }
}

=== FILE: numeric.dfy ===
/** Integer conversions of reals and the small integer helpers both front ends use. */
module Numeric {

  /** JavaScript's `Math.floor`: the greatest integer not above `x`. */
  function Floor(x: real): (r: int)
    ensures r as real <= x < r as real + 1.0
  {
    x.Floor
  }

  /** Python's `int()` applied to a float: rounds toward zero. */
  function Trunc(x: real): (r: int)
    ensures 0.0 <= x ==> r as real <= x < r as real + 1.0
    ensures x < 0.0 ==> r as real - 1.0 < x <= r as real
  {
    if x >= 0.0 then x.Floor else -((-x).Floor)
  }

  /** On non-negative values the two conversions agree; below zero a non-integer
      is sent one higher by `int()` than by `Math.floor`. */
  lemma TruncAgainstFloor(x: real)
    ensures 0.0 <= x ==> Trunc(x) == Floor(x)
    ensures x < 0.0 && x != Floor(x) as real ==> Trunc(x) == Floor(x) + 1
  {
  }

  /** True when `q` is a whole number. */
  predicate IsInteger(q: real) {
    q == q.Floor as real
  }

  /** Whole numbers are closed under addition. */
  lemma IntegerSum(u: real, v: real)
    requires IsInteger(u) && IsInteger(v)
    ensures IsInteger(u + v)
  {
    assert u + v == (u.Floor + v.Floor) as real;
  }

  function Min(a: int, b: int): int {
    if a <= b then a else b
  }

  function Max(a: int, b: int): int {
    if a >= b then a else b
  }

  function Abs(a: int): nat {
    if a < 0 then -a else a
  }

  /** `max(lo, min(hi, v))`, the cursor clamp of both editors. */
  function Clamp(lo: int, hi: int, v: int): (r: int)
    ensures lo <= hi ==> lo <= r <= hi
    ensures lo <= v <= hi ==> r == v
    ensures lo <= hi && v < lo ==> r == lo
    ensures lo <= hi && hi < v ==> r == hi
  {
    Max(lo, Min(hi, v))
  }
}

=== FILE: py_editor.dfy ===
/** The terminal front end's `Editor` (maze_game.py), on the shared `Cursor`:
    a cell flip, and the text view of the maze with the cursor marked. */
module PyEditor {
  import opened Grid
  import opened Cursor
  import PyMaze

  /** `toggle_cell`: a wall cell under the cursor is cleared, any other cell
      becomes a wall; the mode plays no part and no other cell changes. */
  function ToggleCell(m: Maze, e: Editor): (m': Maze)
    requires Valid(m)
    ensures Valid(m') && SameFrame(m', m)
    ensures InBounds(m, e.cursorX, e.cursorY) ==>
      Cell(m', e.cursorX, e.cursorY) == (if Cell(m, e.cursorX, e.cursorY) == 1 then 0 else 1)
    ensures !InBounds(m, e.cursorX, e.cursorY) ==> m' == m
    ensures forall x, y :: InBounds(m, x, y) && (x != e.cursorX || y != e.cursorY) ==>
      Cell(m', x, y) == Cell(m, x, y)
  {
    var isWall := PyMaze.IsWall(m, e.cursorX as real, e.cursorY as real);
    PyMaze.SetWallOnIntegers(m, e.cursorX, e.cursorY, !isWall);
    PyMaze.SetWall(m, e.cursorX as real, e.cursorY as real, !isWall)
  }

  /** Toggling twice restores the maze exactly when the cursor cell holds 0 or 1
      (or is off the grid); any other stored value comes back as 0. */
  lemma {:induction false} ToggleTwice(m: Maze, e: Editor)
    requires Valid(m)
    ensures !InBounds(m, e.cursorX, e.cursorY) || Cell(m, e.cursorX, e.cursorY) in {0, 1} ==>
      ToggleCell(ToggleCell(m, e), e) == m
    ensures InBounds(m, e.cursorX, e.cursorY) && Cell(m, e.cursorX, e.cursorY) !in {0, 1} ==>
      ToggleCell(ToggleCell(m, e), e) != m && Cell(ToggleCell(ToggleCell(m, e), e), e.cursorX, e.cursorY) == 0
  {
    var twice := ToggleCell(ToggleCell(m, e), e);
    if !InBounds(m, e.cursorX, e.cursorY) || Cell(m, e.cursorX, e.cursorY) in {0, 1} {
      forall x, y | InBounds(m, x, y)
        ensures Cell(m, x, y) == Cell(twice, x, y)
      {
      }
      SameCells(m, twice);
    }
  }

  function DigitChar(d: nat): char
    requires d < 10
  {
    "0123456789"[d]
  }

  /** Decimal digits of a natural number, most significant first. */
  function Digits(n: nat): (s: string)
    ensures 1 <= |s|
    decreases n
  {
    if n < 10 then [DigitChar(n)] else Digits(n / 10) + [DigitChar(n % 10)]
  }

  /** Python's `str` of an integer. */
  function Decimal(n: int): string {
    if n < 0 then "-" + Digits(-n) else Digits(n)
  }

  function ModeName(mode: EditMode): string {
    match mode
    case Draw => "DRAW"
    case Erase => "ERASE"
  }

  const Title: string := "=== MAZE EDITOR ==="
  const Help: string := "WASD: Move | Space: Toggle | E: Erase mode | R: Draw mode | Ctrl+S: Save | Ctrl+L: Load | M: Game | ESC: Quit"

  /** The status line: mode in capitals and cursor coordinates. */
  function StatusLine(e: Editor): string {
    "Mode: " + ModeName(e.mode) + " | Cursor: (" + Decimal(e.cursorX) + ", " + Decimal(e.cursorY) + ")"
  }

  /** One character of the maze view: 'X' on the cursor, '#' on a wall, ' ' otherwise. */
  function ViewChar(m: Maze, e: Editor, x: int, y: int): char
    requires Valid(m) && InBounds(m, x, y)
  {
    if x == e.cursorX && y == e.cursorY then 'X'
    else if PyMaze.IsWall(m, x as real, y as real) then '#'
    else ' '
  }

  /** The header above the maze view. */
  function Header(e: Editor): seq<string> {
    [Title, StatusLine(e), Help, ""]
  }

  /** What the maze part of the view shows: one line per maze row whose
      characters mark the cursor cell with 'X' and every other cell with '#'
      exactly when it is a wall, ' ' otherwise. */
  predicate ShowsCells(m: Maze, e: Editor, rows: seq<string>)
    requires Valid(m)
  {
    && |rows| == m.height
    && (forall y :: 0 <= y < m.height ==> |rows[y]| == m.width)
    && (forall x, y :: 0 <= x < m.width && 0 <= y < m.height ==>
          (rows[y][x] == 'X' <==> x == e.cursorX && y == e.cursorY))
    && (forall x, y :: 0 <= x < m.width && 0 <= y < m.height && (x != e.cursorX || y != e.cursorY) ==>
          && (rows[y][x] == '#' || rows[y][x] == ' ')
          && (rows[y][x] == '#' <==> Cell(m, x, y) == 1))
  }

  /** A grid of `ViewChar`s shows the cells. */
  lemma CellsMeaning(m: Maze, e: Editor, rows: seq<string>)
    requires Valid(m)
    requires |rows| == m.height && forall y :: 0 <= y < m.height ==> |rows[y]| == m.width
    requires forall x, y :: 0 <= x < m.width && 0 <= y < m.height ==> rows[y][x] == ViewChar(m, e, x, y)
    ensures ShowsCells(m, e, rows)
  {
  }

  /** One maze row of the view. */
  method ViewLine(m: Maze, e: Editor, y: int) returns (line: string)
    requires Valid(m) && 0 <= y < m.height
    ensures |line| == m.width
    ensures forall x :: 0 <= x < m.width ==> line[x] == ViewChar(m, e, x, y)
  {
    line := "";
    var x := 0;
    while x < m.width
      invariant 0 <= x <= m.width
      invariant |line| == x
      invariant forall c :: 0 <= c < x ==> line[c] == ViewChar(m, e, c, y)
    {
      line := line + [ViewChar(m, e, x, y)];
      x := x + 1;
    }
  }

  /** `render`: the header (title, mode and cursor, key help, a blank line),
      then the maze row by row. */
  method Render(m: Maze, e: Editor) returns (lines: seq<string>)
    requires Valid(m)
    ensures |lines| == 4 + m.height
    ensures lines[..4] == Header(e)
    ensures ShowsCells(m, e, lines[4..])
  {
    var rows: seq<string> := [];
    var y := 0;
    while y < m.height
      invariant 0 <= y <= m.height
      invariant |rows| == y
      invariant forall r :: 0 <= r < y ==> |rows[r]| == m.width
      invariant forall x, r :: 0 <= x < m.width && 0 <= r < y ==> rows[r][x] == ViewChar(m, e, x, r)
    {
      var line := ViewLine(m, e, y);
      rows := rows + [line];
      y := y + 1;
    }
    CellsMeaning(m, e, rows);
    lines := Header(e) + rows;
    assert lines[..4] == Header(e);
    assert lines[4..] == rows;
  }
}

=== FILE: py_game.dfy ===
/** The terminal front end's `Game` (maze_game.py): the start-up state and the
    two key handlers. The keys are those held at one poll, the cosines and sines
    of the heading are inputs, and the file `maze.json` is a value passed in and
    handed back. */
module PyGame {
  import opened Numeric
  import opened Grid
  import opened Cursor
  import Camera
  import Layout
  import PyMaze
  import PyPlayer
  import PyEditor

  /** The keys held at one poll. */
  datatype Keys = Keys(w: bool, s: bool, a: bool, d: bool, q: bool, e: bool, m: bool,
                       space: bool, r: bool, ctrlS: bool, ctrlL: bool)

  const NoKeys: Keys := Keys(false, false, false, false, false, false, false, false, false, false, false)

  datatype Game = Game(maze: Maze, player: PyPlayer.Player, editor: Cursor.Editor, mode: Mode)

  /** The save file: absent or unreadable, or holding a maze record. */
  datatype SaveFile = Unreadable | Stored(data: Snapshot)

  /** A handler's result: the new game and the save file after it. */
  datatype Outcome = Outcome(game: Game, file: SaveFile)

  /** The state `__init__` builds as written: the constructor's grid is all
      walls, so the generated maze walls in the player's starting cell. */
  function StartAsWritten(): (g: Game)
    ensures Valid(g.maze) && g.maze.width == 20 && g.maze.height == 20
    ensures g.player == PyPlayer.Player(1.5, 1.5, 0.0) && g.editor == Cursor.New() && g.mode == GameMode
    ensures !PyPlayer.OpenAt(g.maze, g.player.x, g.player.y)
  {
    PyMaze.AllWallsDefaultLayout();
    var g := Game(Layout.Expected(PyMaze.New(20, 20)), PyPlayer.Player(1.5, 1.5, 0.0), Cursor.New(), GameMode);
    assert Trunc(1.5) == 1;
    assert Cell(g.maze, 1, 1) == 1;
    g
  }

  /** The start-up state with the grid starting empty, as the default layout
      intends: the player starts in an open cell, inside the maze. */
  function Start(): (g: Game)
    ensures Valid(g.maze) && g.maze.width == 20 && g.maze.height == 20
    ensures g.player == PyPlayer.Player(1.5, 1.5, 0.0) && g.editor == Cursor.New() && g.mode == GameMode
    ensures PyPlayer.OpenAt(g.maze, g.player.x, g.player.y)
    ensures InBounds(g.maze, g.editor.cursorX, g.editor.cursorY)
  {
    PyMaze.EmptyDefaultLayout();
    var g := Game(Layout.Expected(Fresh(20, 20, 0)), PyPlayer.Player(1.5, 1.5, 0.0), Cursor.New(), GameMode);
    assert Trunc(1.5) == 1;
    assert Cell(g.maze, 1, 1) == 0;
    g
  }

  /** `__init__` followed by `generate_default_maze`, with the grid starting empty. */
  method Init() returns (g: Game)
    ensures g == Start()
  {
    var maze := Layout.GenerateDefault(Fresh(20, 20, 0));
    g := Game(maze, PyPlayer.Player(1.5, 1.5, 0.0), Cursor.New(), GameMode);
  }

  /** As written, the starting player can never move: row 1 and column 1 of the
      generated maze are all wall, and every candidate is checked against one of
      them. */
  lemma {:induction false} StartBoxedIn(newX: real, newY: real)
    ensures var g := StartAsWritten();
      PyPlayer.Slide(g.maze, g.player, newX, newY) == g.player
  {
    var g := StartAsWritten();
    PyMaze.AllWallsDefaultLayout();
    assert Trunc(1.5) == 1;
    if 0.0 <= Trunc(newX) as real < 20.0 {
      assert Cell(g.maze, Trunc(newX), 1) == 1;
    }
    if 0.0 <= Trunc(newY) as real < 20.0 {
      assert Cell(g.maze, 1, Trunc(newY)) == 1;
    }
  }

  /** With the corrected start, a small step east is taken. */
  lemma {:induction false} StartCanMove()
    ensures var g := Start();
      PyPlayer.MoveForward(g.maze, g.player, 1.0, 0.0, PyPlayer.MoveSpeed) == g.player.(x := 1.55)
  {
    var g := Start();
    PyMaze.EmptyDefaultLayout();
    assert Trunc(1.55) == 1 && Trunc(1.5) == 1;
    assert Cell(g.maze, 1, 1) == 0;
  }

  /** The player after the movement keys of one poll, each move from where the
      previous one left off; the heading is the same for all four. */
  function Moves(m: Maze, p: PyPlayer.Player, k: Keys, t: Camera.Trig): (q: PyPlayer.Player)
    requires Valid(m)
    ensures q.angle == p.angle
    ensures PyPlayer.OpenAt(m, p.x, p.y) ==> PyPlayer.OpenAt(m, q.x, q.y)
    ensures !k.w && !k.s && !k.a && !k.d ==> q == p
  {
    var p1 := if k.w then PyPlayer.MoveForward(m, p, t.cosA, t.sinA, PyPlayer.MoveSpeed) else p;
    var p2 := if k.s then PyPlayer.MoveBackward(m, p1, t.cosA, t.sinA, PyPlayer.MoveSpeed) else p1;
    var p3 := if k.a then PyPlayer.StrafeLeft(m, p2, t.cosA, t.sinA, PyPlayer.MoveSpeed) else p2;
    if k.d then PyPlayer.StrafeRight(m, p3, t.cosA, t.sinA, PyPlayer.MoveSpeed) else p3
  }

  /** `handle_game_input`: moves, then turns (the angle is never wrapped), then
      'm' switches to the editor. The maze and the editor are untouched. */
  function HandleGameInput(g: Game, k: Keys, t: Camera.Trig): (g': Game)
    requires Valid(g.maze)
    ensures g'.maze == g.maze && g'.editor == g.editor
    ensures g'.player.x == Moves(g.maze, g.player, k, t).x && g'.player.y == Moves(g.maze, g.player, k, t).y
    ensures PyPlayer.OpenAt(g.maze, g.player.x, g.player.y) ==> PyPlayer.OpenAt(g'.maze, g'.player.x, g'.player.y)
    ensures k.q == k.e ==> g'.player.angle == g.player.angle
    ensures k.q && !k.e ==> g'.player.angle == g.player.angle - PyPlayer.RotateSpeed
    ensures k.e && !k.q ==> g'.player.angle == g.player.angle + PyPlayer.RotateSpeed
    ensures g'.mode == EditorMode <==> k.m || g.mode == EditorMode
    ensures !k.w && !k.s && !k.a && !k.d ==> g'.player.x == g.player.x && g'.player.y == g.player.y
  {
    var moved := Moves(g.maze, g.player, k, t);
    var a1 := if k.q then moved.angle - PyPlayer.RotateSpeed else moved.angle;
    var a2 := if k.e then a1 + PyPlayer.RotateSpeed else a1;
    g.(player := moved.(angle := a2), mode := if k.m then EditorMode else g.mode)
  }

  /** A player whom every candidate position leaves in place is not moved by
      any keys. */
  lemma BoxedStaysPut(m: Maze, p: PyPlayer.Player, k: Keys, t: Camera.Trig)
    requires Valid(m)
    requires forall x, y :: PyPlayer.Slide(m, p, x, y) == p
    ensures Moves(m, p, k, t) == p
  {
  }

  /** As written, no keys and no heading ever move the starting player. */
  lemma {:induction false} StartFrozen(k: Keys, t: Camera.Trig)
    ensures var g := StartAsWritten();
      var g' := HandleGameInput(g, k, t);
      g'.player.x == g.player.x && g'.player.y == g.player.y
  {
    var g := StartAsWritten();
    forall x, y
      ensures PyPlayer.Slide(g.maze, g.player, x, y) == g.player
    {
      StartBoxedIn(x, y);
    }
    BoxedStaysPut(g.maze, g.player, k, t);
  }

  /** Key states the `keyboard` library can report: `is_pressed('s')` asks
      whether the 's' key is down, so it holds whenever ctrl+s does. */
  predicate Held(k: Keys) {
    k.ctrlS ==> k.s
  }

  /** `handle_editor_input` as written: a cursor key moves the cursor and ends
      the poll; otherwise the first held of space (toggle), 'r' (draw), 'e'
      (erase), 'm' (back to the game), ctrl+s (save) and ctrl+l (load) acts
      alone. A failed load is ignored; a successful one also puts the player on
      the loaded start cell. */
  function HandleEditorInput(g: Game, k: Keys, file: SaveFile): (o: Outcome)
    requires Valid(g.maze)
    requires Held(k)
    // a cursor key acts alone: one step by priority, clamped to the maze
    ensures AnyCursorKey(k.w, k.s, k.a, k.d) ==>
      o == Outcome(g.(editor := MoveCursor(g.maze, g.editor, CursorStep(k.w, k.s, k.a, k.d).0, CursorStep(k.w, k.s, k.a, k.d).1)), file)
    ensures AnyCursorKey(k.w, k.s, k.a, k.d) && InBounds(g.maze, g.editor.cursorX, g.editor.cursorY) ==>
      && InBounds(g.maze, o.game.editor.cursorX, o.game.editor.cursorY)
      && Abs(o.game.editor.cursorX - g.editor.cursorX) + Abs(o.game.editor.cursorY - g.editor.cursorY) <= 1
    // otherwise the first held of space, 'r', 'e', 'm' and ctrl+l does its job alone
    ensures !AnyCursorKey(k.w, k.s, k.a, k.d) && k.space ==>
      o == Outcome(g.(maze := PyEditor.ToggleCell(g.maze, g.editor)), file)
    ensures !AnyCursorKey(k.w, k.s, k.a, k.d) && !k.space && k.r ==>
      o == Outcome(g.(editor := g.editor.(mode := Draw)), file)
    ensures !AnyCursorKey(k.w, k.s, k.a, k.d) && !k.space && !k.r && k.e ==>
      o == Outcome(g.(editor := g.editor.(mode := Erase)), file)
    ensures !AnyCursorKey(k.w, k.s, k.a, k.d) && !k.space && !k.r && !k.e && k.m ==>
      o == Outcome(g.(mode := GameMode), file)
    ensures !AnyCursorKey(k.w, k.s, k.a, k.d) && !k.space && !k.r && !k.e && !k.m && k.ctrlL && file.Stored? ==>
      && o.game == g.(maze := Load(g.maze, file.data),
                      player := g.player.(x := file.data.startPos.0 as real, y := file.data.startPos.1 as real))
      && o.file == file
    ensures !AnyCursorKey(k.w, k.s, k.a, k.d) && !k.space && !k.r && !k.e && !k.m && k.ctrlL && file.Unreadable? ==>
      o == Outcome(g, file)
    ensures !AnyCursorKey(k.w, k.s, k.a, k.d) && !k.space && !k.r && !k.e && !k.m && !k.ctrlL ==>
      o == Outcome(g, file)
    // and nothing else changes anything
    ensures o.game.editor.cursorX != g.editor.cursorX || o.game.editor.cursorY != g.editor.cursorY ==>
      AnyCursorKey(k.w, k.s, k.a, k.d)
    ensures o.game.maze != g.maze ==> !AnyCursorKey(k.w, k.s, k.a, k.d) && (k.space || (k.ctrlL && file.Stored?))
    ensures o.game.editor.mode != g.editor.mode ==> !AnyCursorKey(k.w, k.s, k.a, k.d) && !k.space && (k.r || k.e)
    ensures o.game.mode != g.mode ==> k.m && o.game.mode == GameMode
    ensures o.game.player != g.player ==> k.ctrlL && file.Stored?
    ensures o.file != file ==> o.file == Stored(Save(g.maze)) && o.game == g && !AnyCursorKey(k.w, k.s, k.a, k.d) && k.ctrlS
    // the maze stays well formed unless an ill-formed record is loaded
    ensures Valid(o.game.maze) || (file.Stored? && o.game.maze == Load(g.maze, file.data))
  {
    if AnyCursorKey(k.w, k.s, k.a, k.d) then
      var step := CursorStep(k.w, k.s, k.a, k.d);
      Outcome(g.(editor := MoveCursor(g.maze, g.editor, step.0, step.1)), file)
    else if k.space then
      Outcome(g.(maze := PyEditor.ToggleCell(g.maze, g.editor)), file)
    else if k.r then
      Outcome(g.(editor := g.editor.(mode := Draw)), file)
    else if k.e then
      Outcome(g.(editor := g.editor.(mode := Erase)), file)
    else if k.m then
      Outcome(g.(mode := GameMode), file)
    else if k.ctrlS then
      Outcome(g, Stored(Save(g.maze)))
    else if k.ctrlL then
      match file
      case Unreadable => Outcome(g, file)
      case Stored(data) =>
        var m := Load(g.maze, data);
        Outcome(g.(maze := m, player := g.player.(x := m.startPos.0 as real, y := m.startPos.1 as real)), file)
    else
      Outcome(g, file)
  }

  /** As written, the save branch is dead: ctrl+s always comes with 's', which
      the cursor keys test first, so no key state the keyboard can report
      writes the file, and ctrl+s moves the cursor down instead. */
  lemma SaveUnreachable(g: Game, k: Keys, file: SaveFile)
    requires Valid(g.maze)
    requires Held(k)
    ensures HandleEditorInput(g, k, file).file == file
    ensures k.ctrlS && !k.w ==> HandleEditorInput(g, k, file).game == g.(editor := MoveCursor(g.maze, g.editor, 0, 1))
  {
  }

  /** The editor handler with ctrl+s tested before the cursor keys, so that
      the save it offers can happen; every other key state is handled as
      written. */
  function HandleEditorInputSaveFirst(g: Game, k: Keys, file: SaveFile): (o: Outcome)
    requires Valid(g.maze)
    requires Held(k)
    ensures k.ctrlS ==> o.game == g && o.file == Stored(Save(g.maze))
    ensures !k.ctrlS ==> o == HandleEditorInput(g, k, file)
    ensures o.file != file ==> k.ctrlS
  {
    if k.ctrlS then Outcome(g, Stored(Save(g.maze))) else HandleEditorInput(g, k, file)
  }

  /** With the save reachable, saving and then loading in the editor restores
      the maze and puts the player on its start cell, keeping the heading. */
  lemma SaveThenLoad(g: Game, file: SaveFile)
    requires Valid(g.maze)
    ensures var saved := HandleEditorInputSaveFirst(g, NoKeys.(s := true, ctrlS := true), file);
      var loaded := HandleEditorInputSaveFirst(saved.game, NoKeys.(ctrlL := true), saved.file);
      && loaded.game.maze == g.maze
      && loaded.game.player == g.player.(x := g.maze.startPos.0 as real, y := g.maze.startPos.1 as real)
      && loaded.game.editor == g.editor && loaded.game.mode == g.mode
      && loaded.file == Stored(Save(g.maze))
  {
    LoadSaveRoundTrip(g.maze, g.maze);
  }

  /** Two presses of space in the editor restore the maze when the cursor cell
      holds 0 or 1. */
  lemma SpaceTwice(g: Game, file: SaveFile)
    requires Valid(g.maze)
    requires InBounds(g.maze, g.editor.cursorX, g.editor.cursorY) ==> Cell(g.maze, g.editor.cursorX, g.editor.cursorY) in {0, 1}
    ensures var once := HandleEditorInput(g, NoKeys.(space := true), file);
      HandleEditorInput(once.game, NoKeys.(space := true), once.file) == Outcome(g, file)
  {
    PyEditor.ToggleTwice(g.maze, g.editor);
  }
}

=== FILE: py_maze.dfy ===
/** The terminal front end's `Maze` (maze_game.py): bounds tested on the given
    coordinates, cells then addressed with `int()`; a fresh grid is all walls. */
module PyMaze {
  import opened Numeric
  import opened Grid
  import Layout

  /** `Maze(width, height)` as written: every cell a wall, start (1, 1), end (width-2, height-2). */
  function New(width: nat, height: nat): (m: Maze)
    ensures Valid(m) && m.width == width && m.height == height
    ensures forall x, y :: InBounds(m, x, y) ==> Cell(m, x, y) == 1
    ensures m.startPos == (1, 1) && m.endPos == (width - 2, height - 2)
  {
    Fresh(width, height, 1)
  }

  /** `is_wall`: a coordinate outside [0, width) by [0, height) is a wall; inside,
      the cell `grid[int(y)][int(x)]` decides. */
  function IsWall(m: Maze, x: real, y: real): (b: bool)
    requires Valid(m)
    ensures x < 0.0 || y < 0.0 || x >= m.width as real || y >= m.height as real ==> b
    ensures 0.0 <= x < m.width as real && 0.0 <= y < m.height as real ==>
      (b <==> Cell(m, Trunc(x), Trunc(y)) == 1)
  {
    if x < 0.0 || x >= m.width as real || y < 0.0 || y >= m.height as real then true
    else m.grid[Trunc(y)][Trunc(x)] == 1
  }

  /** Callers truncate before asking, so a coordinate in (-1, 0) is read as
      column 0, although the same coordinate asked directly is a wall. */
  lemma TruncatedCallersReadColumnZero(m: Maze, x: real, y: int)
    requires Valid(m) && 1 <= m.width && 0 <= y < m.height
    requires -1.0 < x < 0.0
    ensures IsWall(m, x, y as real)
    ensures IsWall(m, Trunc(x) as real, y as real) <==> Cell(m, 0, y) == 1
  {
    assert Trunc(x) == 0;
  }

  /** `set_wall`: an in-range coordinate sets cell (int(x), int(y)) to 1 or 0;
      any other leaves the maze unchanged. */
  function SetWall(m: Maze, x: real, y: real, isWall: bool): (m': Maze)
    requires Valid(m)
    ensures Valid(m') && SameFrame(m', m)
    ensures 0.0 <= x < m.width as real && 0.0 <= y < m.height as real ==>
      Cell(m', Trunc(x), Trunc(y)) == (if isWall then 1 else 0) && IsWall(m', x, y) == isWall
    ensures !(0.0 <= x < m.width as real && 0.0 <= y < m.height as real) ==> m' == m
    ensures forall cx, cy :: InBounds(m, cx, cy) && (cx != Trunc(x) || cy != Trunc(y)) ==>
      Cell(m', cx, cy) == Cell(m, cx, cy)
  {
    if 0.0 <= x < m.width as real && 0.0 <= y < m.height as real then
      SetCell(m, Trunc(x), Trunc(y), if isWall then 1 else 0)
    else m
  }

  /** On whole-number coordinates, as `generate_default_maze` and the editor pass
      them, `set_wall` is the plain bounds-checked cell write. */
  lemma SetWallOnIntegers(m: Maze, x: int, y: int, isWall: bool)
    requires Valid(m)
    ensures SetWall(m, x as real, y as real, isWall) == SetCell(m, x, y, if isWall then 1 else 0)
  {
  }

  /** Generating on the all-wall grid of the constructor leaves every cell a wall
      except the four openings. */
  lemma {:induction false} AllWallsDefaultLayout()
    ensures var m := Layout.Expected(New(20, 20));
      forall x, y :: InBounds(m, x, y) ==> Cell(m, x, y) == (if Layout.IsOpening(x, y) then 0 else 1)
  {
    var m0 := New(20, 20);
    var m := Layout.Expected(m0);
    forall x, y | InBounds(m, x, y)
      ensures Cell(m, x, y) == (if Layout.IsOpening(x, y) then 0 else 1)
    {
      assert Cell(m, x, y) == Layout.DefaultCell(m0, x, y);
    }
  }

  /** Generating on an empty grid gives the intended layout: walls exactly on the
      border and the rings, less the four openings. */
  lemma {:induction false} EmptyDefaultLayout()
    ensures var m := Layout.Expected(Fresh(20, 20, 0));
      forall x, y :: InBounds(m, x, y) ==>
        (Cell(m, x, y) == 1 <==> !Layout.IsOpening(x, y) && (Layout.OnBorder(m, x, y) || Layout.OnRing(x, y)))
  {
    var m0 := Fresh(20, 20, 0);
    var m := Layout.Expected(m0);
    forall x, y | InBounds(m, x, y)
      ensures Cell(m, x, y) == 1 <==> !Layout.IsOpening(x, y) && (Layout.OnBorder(m, x, y) || Layout.OnRing(x, y))
    {
      assert Cell(m, x, y) == Layout.DefaultCell(m0, x, y);
    }
  }
}

=== FILE: py_player.dfy ===
/** The terminal front end's `Player` (maze_game.py): wall-sliding moves whose
    candidates are truncated with `int()` before `PyMaze.IsWall` sees them. */
module PyPlayer {
  import opened Numeric
  import opened Grid
  import PyMaze

  datatype Player = Player(x: real, y: real, angle: real)

  const MoveSpeed: real := 0.05
  const RotateSpeed: real := 0.05

  /** The cell the player's truncated position names is open. */
  predicate OpenAt(m: Maze, x: real, y: real)
    requires Valid(m)
  {
    !PyMaze.IsWall(m, Trunc(x) as real, Trunc(y) as real)
  }

  /** Wall sliding with truncation: the new x is taken only if cell
      (int(newX), int(y)) is open, then the new y only if (int(x'), int(newY)) is. */
  function Slide(m: Maze, p: Player, newX: real, newY: real): (q: Player)
    requires Valid(m)
    ensures q.angle == p.angle
    ensures (q.x == p.x || q.x == newX) && (q.y == p.y || q.y == newY)
    ensures OpenAt(m, p.x, p.y) ==> OpenAt(m, q.x, q.y)
    ensures OpenAt(m, p.x, p.y) ==>
      -1.0 < q.x < m.width as real && -1.0 < q.y < m.height as real
  {
    var x := if !PyMaze.IsWall(m, Trunc(newX) as real, Trunc(p.y) as real) then newX else p.x;
    var y := if !PyMaze.IsWall(m, Trunc(x) as real, Trunc(newY) as real) then newY else p.y;
    Player(x, y, p.angle)
  }

  /** The four outcomes of a slide: the x candidate is tested against the old
      y, the y candidate against the x just settled, each through `int()`, so a
      diagonal step into a wall keeps the open axis. */
  lemma SlideAxes(m: Maze, p: Player, newX: real, newY: real)
    requires Valid(m)
    ensures PyMaze.IsWall(m, Trunc(newX) as real, Trunc(p.y) as real) && !PyMaze.IsWall(m, Trunc(p.x) as real, Trunc(newY) as real) ==>
      Slide(m, p, newX, newY) == p.(y := newY)
    ensures !PyMaze.IsWall(m, Trunc(newX) as real, Trunc(p.y) as real) && PyMaze.IsWall(m, Trunc(newX) as real, Trunc(newY) as real) ==>
      Slide(m, p, newX, newY) == p.(x := newX)
    ensures !PyMaze.IsWall(m, Trunc(newX) as real, Trunc(p.y) as real) && !PyMaze.IsWall(m, Trunc(newX) as real, Trunc(newY) as real) ==>
      Slide(m, p, newX, newY) == p.(x := newX, y := newY)
    ensures PyMaze.IsWall(m, Trunc(newX) as real, Trunc(p.y) as real) && PyMaze.IsWall(m, Trunc(p.x) as real, Trunc(newY) as real) ==>
      Slide(m, p, newX, newY) == p
  {
  }

  /** Truncation lets a player stand in (-1, 0): a candidate just left of column 0
      is accepted when cell (0, int(y)) is open. */
  lemma SlideAcrossZero(m: Maze, p: Player, newX: real)
    requires Valid(m) && 1 <= m.width && 0.0 <= p.y < m.height as real
    requires -1.0 < newX < 0.0
    requires Cell(m, 0, Trunc(p.y)) == 0
    ensures Slide(m, p, newX, p.y).x == newX
  {
    assert Trunc(newX) == 0;
  }

  /** `move_forward`: the candidate is (x + cos·d, y + sin·d). */
  function MoveForward(m: Maze, p: Player, cosA: real, sinA: real, distance: real): (q: Player)
    requires Valid(m)
    ensures q.angle == p.angle
    ensures (q.x == p.x || q.x == p.x + cosA * distance) && (q.y == p.y || q.y == p.y + sinA * distance)
    ensures OpenAt(m, p.x, p.y) ==> OpenAt(m, q.x, q.y)
  {
    Slide(m, p, p.x + cosA * distance, p.y + sinA * distance)
  }

  /** `move_backward`: the candidate is (x - cos·d, y - sin·d). */
  function MoveBackward(m: Maze, p: Player, cosA: real, sinA: real, distance: real): (q: Player)
    requires Valid(m)
    ensures q.angle == p.angle
    ensures (q.x == p.x || q.x == p.x - cosA * distance) && (q.y == p.y || q.y == p.y - sinA * distance)
    ensures OpenAt(m, p.x, p.y) ==> OpenAt(m, q.x, q.y)
  {
    Slide(m, p, p.x - cosA * distance, p.y - sinA * distance)
  }

  /** `strafe_left`: the direction is the heading less a quarter turn, whose cosine
      and sine are sin and -cos of the heading. */
  function StrafeLeft(m: Maze, p: Player, cosA: real, sinA: real, distance: real): (q: Player)
    requires Valid(m)
    ensures q.angle == p.angle
    ensures (q.x == p.x || q.x == p.x + sinA * distance) && (q.y == p.y || q.y == p.y - cosA * distance)
    ensures OpenAt(m, p.x, p.y) ==> OpenAt(m, q.x, q.y)
  {
    Slide(m, p, p.x + sinA * distance, p.y - cosA * distance)
  }

  /** `strafe_right`: the direction is the heading plus a quarter turn, whose cosine
      and sine are -sin and cos of the heading. */
  function StrafeRight(m: Maze, p: Player, cosA: real, sinA: real, distance: real): (q: Player)
    requires Valid(m)
    ensures q.angle == p.angle
    ensures (q.x == p.x || q.x == p.x - sinA * distance) && (q.y == p.y || q.y == p.y + cosA * distance)
    ensures OpenAt(m, p.x, p.y) ==> OpenAt(m, q.x, q.y)
  {
    Slide(m, p, p.x - sinA * distance, p.y + cosA * distance)
  }
}

=== FILE: py_renderer.dfy ===
/** The terminal front end's `Renderer` (maze_game.py): the ray march against
    truncated cells, the character column of `render_3d` and its transpose into
    screen rows, and the character minimap. */
module PyRenderer {
  import opened Numeric
  import opened Grid
  import opened Ray
  import PyMaze
  import PyPlayer
  import JsRenderer

  /** Sample k of the ray lies in a wall, read through `int()` as the source does. */
  predicate HitsAt(m: Maze, sx: real, sy: real, dx: real, dy: real, k: nat)
    requires Valid(m)
  {
    PyMaze.IsWall(m, Trunc(SampleCoord(sx, dx, k)) as real, Trunc(SampleCoord(sy, dy, k)) as real)
  }

  /** `HitsAt` as the test `Ray.March` searches with. */
  function Hits(m: Maze, sx: real, sy: real, dx: real, dy: real): nat -> bool {
    (k: nat) => Valid(m) && HitsAt(m, sx, sy, dx, dy, k)
  }

  /** On a well-formed maze `Hits` is `HitsAt` at every sample. */
  lemma HitsMeaning(m: Maze, sx: real, sy: real, dx: real, dy: real)
    requires Valid(m)
    ensures forall k: nat :: Hits(m, sx, sy, dx, dy)(k) == HitsAt(m, sx, sy, dx, dy, k)
  {
  }

  /** `cast_ray`: `int(max_distance / step_size)` steps, returning at the first
      sample whose truncated cell is a wall. (dx, dy) is (cos, sin) of the ray
      angle; `cosOffset` is the cosine of the ray angle minus the heading. */
  method CastRay(m: Maze, startX: real, startY: real, dx: real, dy: real, cosOffset: real) returns (h: RayHit)
    requires Valid(m)
    requires dx * dx + dy * dy == 1.0
    ensures h == March(Hits(m, startX, startY, dx, dy), cosOffset, 0)
    ensures h.Hit? ==> h.sample < Samples && HitsAt(m, startX, startY, dx, dy, h.sample)
    ensures h.Hit? ==> h.distance == SampleDistance(h.sample, cosOffset)
    ensures h.Hit? ==> forall j :: 0 <= j < h.sample ==> !HitsAt(m, startX, startY, dx, dy, j)
    ensures h.Clear? <==> forall j :: 0 <= j < Samples ==> !HitsAt(m, startX, startY, dx, dy, j)
  {
    ghost var hits := Hits(m, startX, startY, dx, dy);
    HitsMeaning(m, startX, startY, dx, dy);
    var x := startX;
    var y := startY;
    SamplesIsDepthOverStep();
    var steps := Trunc(Depth as real / StepSize);
    assert steps == Samples;
    var i := 0;
    while i < steps
      invariant 0 <= i <= Samples
      invariant x == Advance(startX, dx, i) && y == Advance(startY, dy, i)
      invariant March(hits, cosOffset, 0) == March(hits, cosOffset, i)
    {
      AdvanceStep(startX, dx, i);
      AdvanceStep(startY, dy, i);
      x := x + dx * StepSize;
      y := y + dy * StepSize;
      if PyMaze.IsWall(m, Trunc(x) as real, Trunc(y) as real) {
        assert hits(i);
        return Hit(i, SampleDistance(i, cosOffset));
      }
      assert !hits(i);
      i := i + 1;
    }
    return Clear;
  }

  /** `min(int((distance / depth) * (len(shades) - 1)), len(shades) - 1)`. */
  function ShadeIndex(distance: real): (i: int)
    ensures 0.0 <= distance ==> 0 <= i < |Shades|
    ensures distance >= Depth as real ==> i == |Shades| - 1
    ensures i <= |Shades| - 1
  {
    Min(Trunc((distance / Depth as real) * (|Shades| - 1) as real), |Shades| - 1)
  }

  /** Farther walls never get a nearer shade. */
  lemma ShadeIndexMonotonic(d1: real, d2: real)
    requires d1 <= d2
    ensures ShadeIndex(d1) <= ShadeIndex(d2)
  {
    assert (d1 / Depth as real) * 9.0 <= (d2 / Depth as real) * 9.0;
  }

  /** Both front ends pick the same shade for every reachable distance; below
      zero `Math.floor` would index before the palette where `int()` gives 0. */
  lemma ShadeIndexAgainstBrowser(distance: real)
    ensures 0.0 <= distance ==> ShadeIndex(distance) == JsRenderer.ShadeIndex(distance)
    ensures ShadeIndex(-1.0) == 0 && JsRenderer.ShadeIndex(-1.0) == -1
  {
    TruncAgainstFloor((distance / Depth as real) * 9.0);
    TruncAgainstFloor((-1.0 / Depth as real) * 9.0);
  }

  /** `min(int(height / (distance + 0.0001)), height)`. */
  function WallHeight(height: nat, distance: real): (wh: int)
    requires 0.0 <= distance
    ensures 0 <= wh <= height
  {
    Min(Trunc(height as real / (distance + 0.0001)), height)
  }

  /** Nearer walls are drawn at least as tall. */
  lemma WallHeightNonIncreasing(height: nat, d1: real, d2: real)
    requires 0.0 <= d1 <= d2
    ensures WallHeight(height, d2) <= WallHeight(height, d1)
  {
    var h := height as real;
    var a := d1 + 0.0001;
    var b := d2 + 0.0001;
    assert h / b <= h / a by {
      assert (h / b) * b == h;
      assert (h / a) * a == h;
      assert h * a <= h * b;
    }
  }

  /** The row split of a column with wall height `wh`: `ceiling = (height - wh) // 2`
      and the floor takes the rest, never more than one row more than the ceiling. */
  function RowSplit(height: nat, wh: int): (r: (int, int))
    requires 0 <= wh <= height
    ensures 0 <= r.0 && 0 <= r.1
    ensures r.0 + wh + r.1 == height
    ensures 0 <= r.1 - r.0 <= 1
  {
    var ceiling := (height - wh) / 2;
    (ceiling, height - ceiling - wh)
  }

  function Repeat(c: char, n: nat): (s: string)
    ensures |s| == n && forall i :: 0 <= i < n ==> s[i] == c
  {
    seq(n, _ => c)
  }

  /** Reference column for a distance: ceiling spaces, then the wall in its shade,
      then floor dots, in the counts `RowSplit` gives. */
  function Column(height: nat, distance: real): (col: string)
    requires 0.0 <= distance
    ensures |col| == height
  {
    var wh := WallHeight(height, distance);
    var split := RowSplit(height, wh);
    Repeat(' ', split.0) + Repeat(Shades[ShadeIndex(distance)], wh) + Repeat('.', split.1)
  }

  /** Row `row` of the reference column, position by position. */
  lemma ColumnAt(height: nat, distance: real, row: int)
    requires 0.0 <= distance && 0 <= row < height
    ensures var wh := WallHeight(height, distance); var ceiling := RowSplit(height, wh).0;
      Column(height, distance)[row] ==
        if row < ceiling then ' ' else if row < ceiling + wh then Shades[ShadeIndex(distance)] else '.'
  {
  }

  /** One column of `render_3d`, built row by row as the source does. */
  method BuildColumn(height: nat, distance: real) returns (column: string)
    requires 0.0 <= distance
    ensures column == Column(height, distance)
  {
    var wh := WallHeight(height, distance);
    var ceiling := (height - wh) / 2;
    column := [];
    var row := 0;
    while row < height
      invariant 0 <= row <= height
      invariant column == Column(height, distance)[..row]
    {
      ColumnAt(height, distance, row);
      if row < ceiling {
        column := column + [' '];
      } else if row < ceiling + wh {
        column := column + [Shades[ShadeIndex(distance)]];
      } else {
        column := column + ['.'];
      }
      assert Column(height, distance)[..row + 1] == Column(height, distance)[..row] + [Column(height, distance)[row]];
      row := row + 1;
    }
  }

  /** `render_3d` from the columns' ray distances: one column per distance, then
      the transpose into `height` screen rows. */
  method Render3D(height: nat, distances: seq<real>) returns (rows: seq<string>)
    requires forall c :: 0 <= c < |distances| ==> 0.0 <= distances[c]
    ensures |rows| == height
    ensures forall r :: 0 <= r < height ==> |rows[r]| == |distances|
    ensures forall r, c :: 0 <= r < height && 0 <= c < |distances| ==>
      rows[r][c] == Column(height, distances[c])[r]
  {
    var screen: seq<string> := [];
    var col := 0;
    while col < |distances|
      invariant 0 <= col <= |distances|
      invariant |screen| == col
      invariant forall c :: 0 <= c < col ==> screen[c] == Column(height, distances[c])
    {
      var column := BuildColumn(height, distances[col]);
      screen := screen + [column];
      col := col + 1;
    }
    rows := [];
    var row := 0;
    while row < height
      invariant 0 <= row <= height
      invariant |rows| == row
      invariant forall r :: 0 <= r < row ==> |rows[r]| == |distances|
      invariant forall r, c :: 0 <= r < row && 0 <= c < |distances| ==> rows[r][c] == screen[c][r]
    {
      var line := "";
      var c := 0;
      while c < |distances|
        invariant 0 <= c <= |distances|
        invariant |line| == c
        invariant forall j :: 0 <= j < c ==> line[j] == screen[j][row]
      {
        line := line + [screen[c][row]];
        c := c + 1;
      }
      rows := rows + [line];
      row := row + 1;
    }
  }

  /** The maze column shown at minimap column x: `int(x / (size / width))`. */
  function MazeCol(m: Maze, size: nat, x: int): int
    requires 0 < m.width && 0 < size
  {
    Trunc(x as real / (size as real / m.width as real))
  }

  /** The maze row shown at minimap row y: `int(y / (size / height))`. */
  function MazeRow(m: Maze, size: nat, y: int): int
    requires 0 < m.height && 0 < size
  {
    Trunc(y as real / (size as real / m.height as real))
  }

  /** Position (x, y) is within one step, either way, of the player's scaled cell. */
  predicate NearPlayer(m: Maze, p: PyPlayer.Player, size: nat, x: int, y: int)
    requires 0 < m.width && 0 < m.height
  {
    && Abs(x - Trunc(p.x * (size as real / m.width as real))) <= 1
    && Abs(y - Trunc(p.y * (size as real / m.height as real))) <= 1
  }

  /** Every minimap position samples a cell of the maze, never the outside. */
  lemma MinimapSamplesInside(m: Maze, size: nat, x: int, y: int)
    requires 0 < m.width && 0 < m.height
    requires 0 <= x < size && 0 <= y < size
    ensures InBounds(m, MazeCol(m, size, x), MazeRow(m, size, y))
  {
    var w := m.width as real;
    var h := m.height as real;
    var s := size as real;
    assert x as real / (s / w) == x as real * w / s;
    assert y as real / (s / h) == y as real * h / s;
    assert x as real * w < s * w;
    assert y as real * h < s * h;
  }

  /** At one minimap position per cell the minimap reads the maze cell for cell. */
  lemma MinimapUnitScale(m: Maze, size: nat, x: int, y: int)
    requires 0 < m.width == size && m.height == size
    requires 0 <= x < size && 0 <= y < size
    ensures MazeCol(m, size, x) == x && MazeRow(m, size, y) == y
  {
    assert size as real / m.width as real == 1.0;
  }

  /** One minimap character. */
  function MinimapChar(m: Maze, p: PyPlayer.Player, size: nat, x: int, y: int): char
    requires Valid(m) && 0 < m.width && 0 < m.height && 0 <= x < size && 0 <= y < size
  {
    if NearPlayer(m, p, size, x, y) then '@'
    else if PyMaze.IsWall(m, MazeCol(m, size, x) as real, MazeRow(m, size, y) as real) then '#'
    else ' '
  }

  /** What a grid of minimap characters shows. */
  predicate ShowsMinimap(m: Maze, p: PyPlayer.Player, size: nat, lines: seq<string>)
    requires Valid(m) && 0 < m.width && 0 < m.height
  {
    && |lines| == size
    && (forall y :: 0 <= y < size ==> |lines[y]| == size)
    && (forall x, y :: 0 <= x < size && 0 <= y < size && NearPlayer(m, p, size, x, y) ==> lines[y][x] == '@')
    && (forall x, y :: 0 <= x < size && 0 <= y < size && !NearPlayer(m, p, size, x, y) ==>
          && (lines[y][x] == '#' || lines[y][x] == ' ')
          && (lines[y][x] == '#' <==> PyMaze.IsWall(m, MazeCol(m, size, x) as real, MazeRow(m, size, y) as real)))
  }

  /** A grid of `MinimapChar`s shows the minimap. */
  lemma MinimapMeaning(m: Maze, p: PyPlayer.Player, size: nat, lines: seq<string>)
    requires Valid(m) && 0 < m.width && 0 < m.height
    requires |lines| == size && forall y :: 0 <= y < size ==> |lines[y]| == size
    requires forall x, y :: 0 <= x < size && 0 <= y < size ==> lines[y][x] == MinimapChar(m, p, size, x, y)
    ensures ShowsMinimap(m, p, size, lines)
  {
  }

  /** Away from the player, a minimap '#' marks exactly a wall cell of the maze:
      the out-of-grid fallback of `is_wall` never decides a character. */
  lemma MinimapWallsAreCells(m: Maze, p: PyPlayer.Player, size: nat, lines: seq<string>, x: int, y: int)
    requires Valid(m) && 0 < m.width && 0 < m.height
    requires ShowsMinimap(m, p, size, lines)
    requires 0 <= x < size && 0 <= y < size && !NearPlayer(m, p, size, x, y)
    ensures InBounds(m, MazeCol(m, size, x), MazeRow(m, size, y))
    ensures lines[y][x] == '#' <==> Cell(m, MazeCol(m, size, x), MazeRow(m, size, y)) == 1
  {
    MinimapSamplesInside(m, size, x, y);
  }

  /** One line of the minimap, character by character. */
  method MinimapLine(m: Maze, p: PyPlayer.Player, size: nat, y: int) returns (line: string)
    requires Valid(m) && 0 < m.width && 0 < m.height && 0 <= y < size
    ensures |line| == size
    ensures forall c :: 0 <= c < size ==> line[c] == MinimapChar(m, p, size, c, y)
  {
    line := "";
    var x := 0;
    while x < size
      invariant 0 <= x <= size
      invariant |line| == x
      invariant forall c :: 0 <= c < x ==> line[c] == MinimapChar(m, p, size, c, y)
    {
      line := line + [MinimapChar(m, p, size, x, y)];
      x := x + 1;
    }
  }

  /** What `render_minimap` produces: its lines, or the `ZeroDivisionError`
      raised by `size / width` or `size / height` on a maze with a zero side
      (one loaded from a record that says so). */
  datatype Minimap = ZeroDivision | Lines(lines: seq<string>)

  /** `render_minimap`: `size` lines of `size` characters; the 3 by 3 block around
      the player's scaled cell is '@', everything else shows its scaled maze cell,
      '#' exactly for walls. A maze with a zero side fails before any line. */
  method RenderMinimap(m: Maze, p: PyPlayer.Player, size: nat) returns (r: Minimap)
    requires Valid(m)
    ensures r.ZeroDivision? <==> m.width == 0 || m.height == 0
    ensures r.Lines? ==> 0 < m.width && 0 < m.height && ShowsMinimap(m, p, size, r.lines)
  {
    if m.width == 0 || m.height == 0 {
      return ZeroDivision;
    }
    var lines := [];
    var y := 0;
    while y < size
      invariant 0 <= y <= size
      invariant |lines| == y
      invariant forall row :: 0 <= row < y ==> |lines[row]| == size
      invariant forall x, row :: 0 <= x < size && 0 <= row < y ==> lines[row][x] == MinimapChar(m, p, size, x, row)
    {
      var line := MinimapLine(m, p, size, y);
      lines := lines + [line];
      y := y + 1;
    }
    MinimapMeaning(m, p, size, lines);
    r := Lines(lines);
  }
}

=== FILE: ray.dfy ===
/** Geometry of the ray march shared by both renderers: the marcher advances
    `StepSize` along a unit direction (cos, sin) at most `Samples` times and
    reports the first sample inside a wall. */
module Ray {

  /** The renderer's `depth`: the distance reported when nothing is struck. */
  const Depth: int := 16

  const StepSize: real := 0.01

  /** `maxDistance / stepSize` steps: the loop bound of both marchers. */
  const Samples: nat := 1600

  /** Coordinate after i steps along one axis. */
  function Advance(start: real, d: real, i: nat): real {
    start + i as real * StepSize * d
  }

  /** Coordinate of sample k: `x += d * stepSize` has run k+1 times. */
  function SampleCoord(start: real, d: real, k: nat): real {
    Advance(start, d, k + 1)
  }

  /** One more `x += d * stepSize` advances by one step. */
  lemma AdvanceStep(start: real, d: real, i: nat)
    ensures Advance(start, d, i) + d * StepSize == Advance(start, d, i + 1)
  {
    assert (i + 1) as real * StepSize * d == i as real * StepSize * d + StepSize * d;
  }

  /** Euclidean distance from the origin to sample k along a unit direction,
      corrected for fisheye by the cosine of the angle off the heading. */
  function SampleDistance(k: nat, cosOffset: real): real {
    (k + 1) as real * StepSize * cosOffset
  }

  /** What a march returns: the first sample in a wall and its corrected
      distance, or nothing struck within `Depth`. */
  datatype RayHit = Hit(sample: nat, distance: real) | Clear

  /** Reference search shared by both renderers: the first sample from k on
      that `hits` reports inside a wall. Each front end supplies its own test
      of a sample against the maze. */
  function March(hits: nat -> bool, cosOffset: real, k: nat): (h: RayHit)
    requires k <= Samples
    ensures h.Hit? ==> k <= h.sample < Samples && hits(h.sample)
    ensures h.Hit? ==> h.distance == SampleDistance(h.sample, cosOffset)
    ensures h.Hit? ==> forall j :: k <= j < h.sample ==> !hits(j)
    ensures h.Clear? <==> forall j :: k <= j < Samples ==> !hits(j)
    decreases Samples - k
  {
    if k == Samples then Clear
    else if hits(k) then Hit(k, SampleDistance(k, cosOffset))
    else March(hits, cosOffset, k + 1)
  }

  /** The shade palette of both renderers, nearest first. */
  const Shades: string := " .:-=+*#%@"

  /** The loop bound: `maxDistance / stepSize` is exactly `Samples`. */
  lemma SamplesIsDepthOverStep()
    ensures Samples as real == Depth as real / StepSize
  {
  }

  /** With a non-negative cosine no larger than 1 (the whole field of view), every
      sample's corrected distance lies in (0, Depth]. */
  lemma SampleDistanceBounds(k: nat, cosOffset: real)
    requires k < Samples
    requires 0.0 < cosOffset <= 1.0
    ensures 0.0 < SampleDistance(k, cosOffset) <= Depth as real
  {
    var raw := (k + 1) as real * StepSize;
    assert 0.0 < raw <= Depth as real;
    assert raw * cosOffset <= raw;
  }

  /** The squared Euclidean distance of sample k from the origin is
      `((k+1) * stepSize)^2` for a unit direction, so the `sqrt` of the source
      is `(k+1) * stepSize`. */
  lemma SampleDistanceIsEuclidean(sx: real, sy: real, dx: real, dy: real, k: nat)
    requires dx * dx + dy * dy == 1.0
    ensures var ex := SampleCoord(sx, dx, k) - sx; var ey := SampleCoord(sy, dy, k) - sy;
      ex * ex + ey * ey == ((k + 1) as real * StepSize) * ((k + 1) as real * StepSize)
  {
    var t := (k + 1) as real * StepSize;
    assert SampleCoord(sx, dx, k) - sx == t * dx;
    assert SampleCoord(sy, dy, k) - sy == t * dy;
    calc {
      (t * dx) * (t * dx) + (t * dy) * (t * dy);
      t * t * (dx * dx + dy * dy);
      t * t;
    }
  }

  /** Farther samples are farther away: the corrected distance grows with the
      sample index for a positive cosine. */
  lemma SampleDistanceMonotonic(j: nat, k: nat, cosOffset: real)
    requires j <= k
    requires 0.0 < cosOffset
    ensures SampleDistance(j, cosOffset) <= SampleDistance(k, cosOffset)
  {
    assert (j + 1) as real * StepSize <= (k + 1) as real * StepSize;
  }
}
